=== FILE: README.md ===
# cargo-semver-checks-action in Dafny

This project models the decision logic of the cargo-semver-checks GitHub
Action as pure Dafny functions. It covers:

- how the action turns its inputs into the `cargo semver-checks check-release`
  argument list;
- how it obtains a GitHub token and picks the release asset to download;
- how it decides between the precompiled binary and `cargo install`;
- which cargo and rustup environment variables it defaults;
- how it derives the rustdoc cache key, and when `RustdocCache` restores and
  saves;
- how the PR-comment code ranks a result summary, names its template and
  fills the template's count placeholders.

Most calls to the outside become parameters of the model:

- the GitHub API, the download, `io.which`;
- the output of `rustc --version` and `cargo semver-checks --version`;
- md5, folder-hash, the glob;
- `@actions/cache`'s restore.

The fallback `cargo install` is not a parameter: the model records only
that it runs, and why. "## Left out" lists the calls whose failure the
model does not represent.

Modules, one per file:

- `Wrappers`: `Option` and `Result`.
- `Strings`: JavaScript's `||` on strings, `join`, `includes`, `replaceAll`
  and decimal rendering.
- `Sorting`: the default array sort.
- `Json`: `JSON.stringify` of the run-key documents.
- `Paths`: POSIX `extname`/`dirname` of resolved paths.
- `Utils`: `src/utils.ts`.
- `RustdocCache`: `src/rustdoc-cache.ts`.
- `PrComment`: `src/pr-comment/pr-comment.ts`.
- `ActionMain`: `src/main.ts`.

Partner definitions the contracts are checked against:

- The argument list is read back by `ParseCheckRelease`, a reader for
  exactly the lists `CheckReleaseArguments` builds. It knows only the
  space-separated `--opt value` form, accepts any `--release-type` value,
  and lets a repeated value option overwrite the earlier one. It is not a
  model of `check-release`'s own option parser. The round trip shows that
  no input is lost or reordered.
- The result type is compared with a severity ranking (`Rank`, `Present`).
- Template filling is compared with a template given as text pieces and
  holes (`Piece`, `RenderWith`).
- Environment updates are framed by `SameOutside`: which variables may
  change.

## Model

| member | source | states |
|---|---|---|
| Utils.ErrorMessage | src/utils.ts:9-15 | An `Error` yields its message; any other thrown value yields its string rendering. |
| Utils.PlatformMatchingTarget | src/utils.ts:17-29 | linux, win32 and darwin map to their x86_64 target triples, each in both directions. Every other platform fails with "Unsupported runner". |
| Utils.OptionIfValueProvided | src/utils.ts:31-33 | The result is `[option, value]` when the value is present and non-empty, and `[]` otherwise. |
| Utils.OptionFromList | src/utils.ts:35-37 | The output is twice as long as the values. Every even slot is the option and slot `2i+1` is `values[i]`, so order is kept and an empty list gives nothing. |
| Utils.Trim | src/utils.ts:61 | The result is no longer than the input and does not start or end with white space. |
| Utils.TrimShape | src/utils.ts:61 | The trimmed string is a slice of the input with only white space before and after it. |
| Utils.RemoveWhitespaces | src/utils.ts:60-62 | The result is as long as the trimmed input and holds no white space. Inner white space becomes `-` and every other character is kept. |
| Utils.RemoveWhitespacesIdempotent | src/utils.ts:60-62 | Normalising a version string twice gives the same result as normalising it once. |
| Utils.HashFiles | src/utils.ts:43-48 | The lock hash is md5 of the concatenated per-file hashes taken in sorted path order: any ordered arrangement of the matched paths gives this result. |
| Utils.HashFilesIgnoresEnumerationOrder | src/utils.ts:43-48 | Two glob results with the same paths in any order give the same lock hash, because paths are sorted before hashing. |
| Utils.HashFilesDependsOnMatchedSet | src/utils.ts:43-48 | Duplicate-free glob results with the same members give the same lock hash. |
| Utils.HashFilesOuterBeforeInner | __tests__/utils.test.ts:14-24 | Whichever order the glob reports them in, the hash of `<dir>/Cargo.lock` is fed before that of `<dir>/inner/Cargo.lock`. |
| Sorting.Sort | src/utils.ts:45 | The sorted paths are a permutation of the input and are in order. |
| Sorting.SortedUnique | src/utils.ts:45 | Two sorted permutations of the same paths are equal, so the sort's output depends only on the multiset of paths. |
| Paths.ExtName | src/main.ts:142 | `path.extname` of the last segment of a resolved path: non-empty exactly when that segment is not `..` and has a dot after its first character. It then starts with a dot, holds no other dot, and ends the segment without being all of it. |
| Paths.ManifestDir | src/main.ts:142 | A manifest path without an extension is kept. One with an extension becomes its parent: the path is the parent, a separator and a non-empty last segment. The result is again a resolved path. |
| Paths.DirnameJoinsBasename | src/main.ts:142 | A resolved path is its `dirname`, a separator (none after the root) and its last segment. |
| RustdocCache.RunDependentKey | src/rustdoc-cache.ts:77-84 | The key is the job id, `-`, and then the first 16 characters of the md5 digest of the sorted package list, the sorted exclude list and the manifest path (the whole digest if it is shorter). |
| RustdocCache.RunDependentKeyIgnoresListOrder | src/rustdoc-cache.ts:79-80 | Reordering the package or exclude inputs leaves the run-dependent key unchanged, because both lists are sorted before hashing. |
| RustdocCache.ComputeCacheKey | src/rustdoc-cache.ts:63-71 | The key is, in this order and joined by `-`: the prefix (`semver` when `prefix-key` is empty), the shared key (or the run-dependent key when `shared-key` is empty), the platform, the normalised `rustc --version`, the normalised `cargo semver-checks --version`, the lock-file hash, and `semver-checks-rustdoc`. It is non-empty. |
| RustdocCache.KeyOfLayout | src/rustdoc-cache.ts:63-71 | The seven components joined by dashes are the prefix, run key, platform, rustc version, tool version, locks hash and suffix, in that order. |
| RustdocCache.KeyChangesWithAnyPart | src/rustdoc-cache.ts:63-71 | The seven dash-joined parts keep their positions: changing any single part, with the others fixed, changes the key. This is not injectivity (see `KeyOfDashCollision`). |
| RustdocCache.KeyOfDashCollision | src/rustdoc-cache.ts:63-71 | Moving a dash-separated piece from the end of the prefix to the front of the run key leaves the key unchanged. |
| RustdocCache.PrefixDashCollision | src/rustdoc-cache.ts:64-71 | `prefix-key` `a-b` with `shared-key` `c` and `prefix-key` `a` with `shared-key` `b-c` give the same cache key, though the prefix inputs differ. |
| RustdocCache.CacheKeyTracksLockFiles | src/rustdoc-cache.ts:69 | The key changes if and only if the hash of the matched lock files changes. |
| RustdocCache.CacheKeyTracksPlatform | src/rustdoc-cache.ts:66 | The key changes if and only if the runner platform changes. |
| RustdocCache.CacheKeyTracksRustcVersion | src/rustdoc-cache.ts:67 | The key changes if and only if the normalised `rustc --version` output changes. |
| RustdocCache.CacheKeyTracksToolVersion | src/rustdoc-cache.ts:68 | The key changes if and only if the normalised `cargo semver-checks --version` output changes. |
| RustdocCache.SharedKeyReplacesRunKey | src/rustdoc-cache.ts:65 | With a non-empty `shared-key`, the job id, the package and exclude lists and the manifest path have no effect on the key. |
| RustdocCache.CacheKey | src/rustdoc-cache.ts:61-75 | A key that is already memoised is returned as is. Otherwise the key is computed and remembered. The key is never empty, and the restored key is untouched. |
| RustdocCache.CacheKeyMemoised | src/rustdoc-cache.ts:61-75 | After the first call, every later call returns the same key and changes nothing, even when the inputs have changed by then. |
| RustdocCache.Restore | src/rustdoc-cache.ts:41-59 | The result is true exactly when the lookup returns a non-empty key, and that key is then recorded. On a miss the recorded key stays as it was. The cache key is memoised either way. |
| RustdocCache.Save | src/rustdoc-cache.ts:30-39 | The entry key is the cache key, `-` and the local hash. Nothing is written exactly when that entry key is the recorded one. Otherwise the folder is written under it, and it becomes the recorded key. |
| RustdocCache.SaveTwiceWritesOnce | src/rustdoc-cache.ts:30-39 | A second save with an unchanged local hash writes nothing and leaves the state as it was. |
| RustdocCache.RunSkipsSaveIffRestoredEntryIsCurrent | src/rustdoc-cache.ts:30-59 | In a run where a fresh cache is restored and then saved, the save is skipped exactly when the restore hit the entry `<key>-<local hash>`. |
| PrComment.FromTag | src/pr-comment/pr-comment.ts:10-16 | A recognised string value names the result type whose value it is. |
| PrComment.TagRoundTrip | src/pr-comment/pr-comment.ts:10-16 | Every result type is recovered from its string value. |
| PrComment.TemplateFileName | src/pr-comment/pr-comment.ts:87 | The template name ends in `.txt`, and the part before `.txt` is the string value of the result type. |
| PrComment.DetermineResultType | src/pr-comment/pr-comment.ts:48-60 | Error if and only if there are errors. Warning if and only if there are no errors but some warnings. Major and minor follow the same pattern. Patch if and only if all four lists are empty. |
| PrComment.ResultIsMostSevere | src/pr-comment/pr-comment.ts:48-60 | The chosen type is present and no present kind outranks it, under error > warning > major > minor > patch. |
| PrComment.MostSevereIsDetermined | src/pr-comment/pr-comment.ts:48-60 | Any type that is present and outranks every present kind is the one chosen. |
| PrComment.NewResultSummary | src/pr-comment/pr-comment.ts:25-37 | The summary keeps its four lists, and its result type is the one those lists determine. |
| PrComment.ParseCargoSemverChecksOutput | src/pr-comment/pr-comment.ts:116-133 | Empty output fails with "No output provided for parsing.". Any other output gives a consistent summary. |
| PrComment.NonEmptyOutputIsPatch | src/pr-comment/pr-comment.ts:120-149 | The parsers return empty lists, so every non-empty output is a patch with nothing found. |
| PrComment.Count | src/pr-comment/pr-comment.ts:98-103 | A count is a non-empty string of decimal digits, without zero padding (one that starts with `0` is `"0"`), that reads back as the length of its key's list. |
| PrComment.ReplaceTemplatePlaceholders | src/pr-comment/pr-comment.ts:97-111 | After replacement, none of the four placeholders occurs in the comment. A template without any of them comes back unchanged. |
| PrComment.ReplaceKeysCreatesNothing | src/pr-comment/pr-comment.ts:105-108 | Replacement creates no placeholder occurrence that was not in the template. |
| PrComment.ReplaceFillsHoles | src/pr-comment/pr-comment.ts:106-107 | In a template whose texts hold no two braces in a row and never follow each other, replacing one placeholder turns exactly its occurrences into its count and leaves the other placeholders in place. |
| PrComment.EachPlaceholderBecomesItsCount | src/pr-comment/pr-comment.ts:97-111 | In a template whose texts hold no two braces in a row and never follow each other, each placeholder occurrence becomes the decimal length of its list and the rest is unchanged. Single braces, also next to a placeholder, are allowed. |
| PrComment.ErrorCountFilled | src/pr-comment/pr-comment.ts:102-107 | `{{errorCount}}` between texts with no two braces in a row is replaced by the number of errors, so `{{{errorCount}}}` becomes the count in single braces. |
| Strings.NatToDecimal | src/pr-comment/pr-comment.ts:99-102 | `length.toString()` is a non-empty string of decimal digits. A rendering that starts with `0` is exactly `"0"`, the rendering of 0. |
| Strings.DecimalRoundTrip | src/pr-comment/pr-comment.ts:99-102 | The decimal rendering of a count reads back as that count. |
| Strings.ReplaceAllAbsent | src/pr-comment/pr-comment.ts:107 | For a replacement without `$`: without an occurrence of the pattern, `replaceAll` returns its input. |
| Strings.ReplaceAllAtMatch | src/pr-comment/pr-comment.ts:107 | For a replacement without `$`, an occurrence at the front becomes the replacement, and the scan goes on after it. |
| Strings.ReplaceAllPlainPrefix | src/pr-comment/pr-comment.ts:107 | For a replacement without `$`, text without the pattern's first character is copied unchanged, and the scan goes on after it. |
| Strings.ReplaceAllRemoves | src/pr-comment/pr-comment.ts:107 | `replaceAll` with a non-empty replacement without `$` that shares no character with the pattern leaves no occurrence of the pattern. |
| Strings.ReplaceAllCreatesNothing | src/pr-comment/pr-comment.ts:107 | `replaceAll` with a non-empty replacement without `$` creates no occurrence of a string that shares no character with the replacement. |
| Strings.JoinSplit | src/rustdoc-cache.ts:71 | The join of a list is the join of its front, the separator and the join of its back, split at any inner position. |
| Strings.JoinEnds | src/rustdoc-cache.ts:71 | A join of two or more parts starts with the first part and the separator, and ends with the separator and the last part. |
| Strings.JoinDistinguishesPosition | src/rustdoc-cache.ts:71 | Joining equally many parts that differ in one position gives different strings. |
| ActionMain.CheckReleaseArguments | src/main.ts:19-27 | The argument count is twice the number of packages and of excludes, plus two for each non-empty value option, plus one for verbose. |
| ActionMain.CheckReleaseLayout | src/main.ts:19-27 | The groups come in the source's order: slot `2k` is `--package` and `2k+1` the k-th package; the exclude pairs follow at offset `2·|packages|`; then `--manifest-path` and its value, then `--release-type` and its value, each when given; and `--verbose`, when requested, is last. |
| ActionMain.CheckReleaseRoundTrip | src/main.ts:19-27 | Reading the argument list back yields exactly the inputs: both lists in order, both values, and the verbose flag. |
| ActionMain.CheckReleaseArgumentsInjective | src/main.ts:19-27 | Different inputs never give the same argument list. |
| ActionMain.VerboseOccursOnceIffRequested | src/main.ts:25 | When no input value is itself `--verbose`, the flag occurs once if verbose is requested and never otherwise. |
| ActionMain.GitHubToken | src/main.ts:29-35 | A non-empty GITHUB_TOKEN wins, and the `github-token` input is used otherwise. Both empty fail with the token message. A token returned is never empty. |
| ActionMain.FindAsset | src/main.ts:55-57 | The index found is that of the first asset whose name ends with the suffix. None is found exactly when no asset matches. |
| ActionMain.AssetUrl | src/main.ts:55-63 | The URL is that of the first asset whose name ends with `<target>.tar.gz`. Failure with "Couldn't find a release for target" happens exactly when none does. |
| ActionMain.FirstMatchingAssetWins | src/main.ts:55-57 | The first matching asset's URL is chosen whatever follows it. |
| ActionMain.DownloadUrl | src/main.ts:37-64 | The corrected code, with the tagged release at line 48 awaited: a missing token fails first. Then the latest or the tagged release is fetched, a failed request's error is passed on, and the asset URL is chosen. |
| ActionMain.DownloadUrlAsWritten | src/main.ts:37-64 | The code as written: a missing token fails first, `latest` behaves as in `DownloadUrl`, and any other version fails with the TypeError from reading `assets` off the pending promise. |
| ActionMain.PinnedVersionNeverDownloadsAsWritten | src/main.ts:47-57 | For a pinned version whose release lists any assets with the first matching one anywhere among them, the corrected code yields its URL while the code as written fails. |
| ActionMain.InstallFromPrecompiledWith | src/main.ts:104-115 | An unsupported runner fails first with "Unsupported runner". A successful install needs a supported runner and a token. |
| ActionMain.InstallFromPrecompiled | src/main.ts:104-115 | With the download URL of lines 37-64 computed as in `DownloadUrl`, the failures come in order: unsupported runner, then missing token, then a failed release request, then a release without the asset. Only then is the asset fetched, with the token, and that result is returned. |
| ActionMain.InstallFromPrecompiledAsWritten | src/main.ts:104-115 | As written, `latest` installs as `InstallFromPrecompiled` does, and every pinned version fails. |
| ActionMain.PinnedVersionDownloads | src/main.ts:104-137 | With the release awaited, a pinned version whose release lists the runner's asset, after any non-matching assets and before any others, installs the downloaded binary of that first matching asset. |
| ActionMain.InstallCargoSemverChecks | src/main.ts:121-137 | A tool already on PATH is left alone. Otherwise a precompiled install that succeeds is used, and `cargo install` runs exactly when it failed, carrying its error. |
| ActionMain.InstallCargoSemverChecksAsWritten | src/main.ts:121-137 | With the tag request of line 48 not awaited, the action ends on an unhandled rejection exactly when the tool is missing, the version is pinned, the runner is supported, a token is present and the tag request fails; the error is that request's. Otherwise the install goes on as `InstallCargoSemverChecks` with the as-written precompiled install. |
| ActionMain.PinnedVersionFallsBackAsWritten | src/main.ts:121-137 | With the tag request of line 48 not awaited, a missing tool with a pinned version either ends the action on the rejected tag request or is built with `cargo install`, and the latter whenever the tag request succeeds. It is never installed from the binary. |
| ActionMain.DefaultVar | src/main.ts:80 | A variable with a non-empty value keeps it; otherwise it gets the default. No other variable changes. |
| ActionMain.DefaultVarIdempotent | src/main.ts:80-83 | Defaulting the same variable a second time changes nothing. |
| ActionMain.Toolchain | src/main.ts:67 | The toolchain is the input, or `stable` when the input is empty. It is never empty. |
| ActionMain.InstallRustUpIfRequested | src/main.ts:66-93 | A toolchain is requested exactly when it is not `manual`. Only the four managed variables can change. |
| ActionMain.RustupToolchainSelected | src/main.ts:67-77 | RUSTUP_TOOLCHAIN becomes the toolchain unless it is `manual`, in which case it is left as it was. |
| ActionMain.CargoDefaultsApplied | src/main.ts:79-83 | CARGO_INCREMENTAL becomes `0` and CARGO_TERM_COLOR becomes `always`, unless each already holds a non-empty value, which is kept. |
| ActionMain.SparseProtocolSelected | src/main.ts:85-92 | The crates.io protocol becomes `sparse` exactly when it was unset and the normalised rustc version starts with neither `rustc-1.66` nor `rustc-1.67`. Otherwise it is untouched. |
| ActionMain.InstallRustUpIdempotent | src/main.ts:66-93 | Running the step a second time with the same inputs leaves the environment as the first run left it. |
| ActionMain.RunCargoSemverChecks | src/main.ts:95-102 | cargo runs `semver-checks check-release` followed by arguments that read back as the inputs. CARGO_TARGET_DIR is set to `semver-checks/target` and nothing else in the environment changes. |
| ActionMain.RunSettings | src/main.ts:140-142 | The version is the input, or `latest` when the input is empty. The manifest directory is derived from the resolved manifest path and is itself resolved. |

## Left out

- **I/O.** The GitHub API, the download and extraction, `rustup`, running
  `cargo` and `rustc`, `io.which`, `io.mkdirP` and `@actions/cache` are not
  modelled. Where the action uses a result (the GitHub API, the download,
  `io.which`, the version outputs), that result is a parameter. The others
  (`io.mkdirP`, `rustup`, `cache.saveCache`) are assumed to succeed, as the
  next item lists. The GitHub API and the download may fail in the model.
- **Failures of the other external calls.** A rejection of any of these
  ends `run` in the source. None of them fails in the model:
  - the rustup install, `show`, profile and toolchain calls
    (src/main.ts:69-72);
  - `rustc --version` (src/utils.ts:66, reached from src/main.ts:88);
  - `io.mkdirP` in restore (src/rustdoc-cache.ts:42);
  - `cache.saveCache` in save (src/rustdoc-cache.ts:36);
  - the fallback `cargo install` (src/main.ts:117-119, reached at
    src/main.ts:135). `ActionMain.Installation`'s `CargoInstall` records
    that it runs and why, not whether the build succeeds; a failed build
    ends `run`;
  - `cargo semver-checks --version` (src/utils.ts:70-74), whose output
    feeds the cache key;
  - `rustCore.Cargo.get()` (src/main.ts:146);
  - the glob and `hashElement` in `hashFiles` (src/utils.ts:44-46);
  - `hashFolderContent` for the local cache hash (src/rustdoc-cache.ts:87);
  - `cargo.call` in `runCargoSemverChecks` (src/main.ts:101). It rejects
    on a non-zero exit, which is the normal result when breaking changes
    are found. `run` then never reaches `cache.save()` (src/main.ts:157-158).
    `RustdocCache.RunSkipsSaveIffRestoredEntryIsCurrent` describes only a
    run whose check passes.
- **Hashes.** md5, folder-hash and the glob are uninterpreted functions. So
  "changing a lock file changes the key" is stated only up to the hash:
  `CacheKeyTracksLockFiles` says that the key tracks the aggregate hash.
- **`path.resolve` and `path.join`.** They are not modelled. `RunSettings`
  and `Paths.ManifestDir` take an already resolved POSIX path, and Windows
  path syntax is not covered.
- **Sort order.** JavaScript's default sort compares UTF-16 code units.
  `Sorting.Below` compares code points, which differs only between
  characters above U+FFFF and those from U+E000 to U+FFFF.
- **Reading inputs.** `getInputList` parsing and `getInputBool` are not
  modelled. Inputs arrive as lists, strings and booleans.
- **Logging and error handling.** `core.info`, `core.setFailed`, the
  top-level `main`/`run` try/catch and the promise sequencing inside `run`
  are not modelled. The steps are separate functions.
- **Template loading.** Loading the template file (src/pr-comment/pr-comment.ts:86-95)
  and posting the comment are not modelled. Only the file name is.
- **`src/pr-comment.ts`.** It posts a fixed comment, so there is no logic
  to model.
- **The `getGitHubToken` copy in src/pr-comment/pr-comment.ts:78-84.** It is
  the same as the one in `src/main.ts`, which `ActionMain.GitHubToken`
  models.
- RustdocCache.ComputeCacheKey: the key is not injective in its inputs.
  Parts are joined with `-`, and a `prefix-key` or `shared-key` may itself
  contain dashes, so different inputs can share a key
  (`RustdocCache.PrefixDashCollision`). `KeyChangesWithAnyPart` and the
  `CacheKeyTracks…` lemmas speak of one part changing with all others
  fixed.
- PrComment.ReplaceFillsHoles: covers only templates whose texts hold no
  two braces in a row and never follow each other (`Plain`). A text with
  `{{` outside a placeholder, such as `{{other}}` or `{{` just before a
  placeholder, is not covered.
- PrComment.EachPlaceholderBecomesItsCount: covers the same templates as
  `ReplaceFillsHoles`, for the same reason. For those templates it states
  the full result. For every template, `ReplaceTemplatePlaceholders` still
  promises that no placeholder remains.
- ActionMain.InstallCargoSemverChecksAsWritten: the moment at which the
  unhandled rejection ends the process is not modelled. The outcome ends
  the action at the install step, even though the fallback `cargo install`
  may still be running when the rejection arrives.
- Strings.ReplaceAll: inserts the replacement literally. JavaScript's
  `replaceAll` expands `$$`, `$&`, `` $` `` and `$'` in a string
  replacement, so every `Strings.ReplaceAll…` lemma holds only for a
  replacement without `$`. The one call in the source
  (src/pr-comment/pr-comment.ts:107) passes a string of digits.
- Utils.HashFiles: with no matched lock file the code digests empty input,
  so the hash component is md5 of nothing rather than an empty string. The
  model follows the code.
- ActionMain.VerboseOccursOnceIffRequested: requires that no package,
  exclude or value input is itself `--verbose`. Otherwise such a value
  adds occurrences of its own.
- ActionMain.InstallRustUpIfRequested: takes the normalised output of
  `rustc --version` as a parameter. The source reads it only when the
  protocol variable is unset, which gives the same environment.
- **`Json`.** The JSON encoding of the run-key documents carries no
  contracts. Only its use as the md5 input matters, through
  `RunDependentKeyIgnoresListOrder`.
- **`toString` of `ResultSummary`.** It is only used for logging.

## Findings

| source | as written | input that shows it | evidently intended | confidence | as-written member | corrected member |
|---|---|---|---|---|---|---|
| src/main.ts:48 | For a pinned version, `getReleaseByTag` is not awaited. `getReleaseUrl.data` is then undefined on the pending promise, and reading `.assets` throws, so the action falls back to `cargo install`. If the pending request is later rejected, nothing handles the rejection and the Node process ends. | Any `version` input other than `latest`, for example `v0.24.0`: with a release that has the asset, the binary is not used; with an unknown tag, the process ends. | Await the tagged release as the latest one is awaited, and download its first matching asset. | not executed | ActionMain.DownloadUrlAsWritten and ActionMain.InstallCargoSemverChecksAsWritten (lemmas ActionMain.PinnedVersionNeverDownloadsAsWritten, ActionMain.PinnedVersionFallsBackAsWritten) | ActionMain.DownloadUrl (lemma ActionMain.PinnedVersionDownloads) |

=== FILE: action_main.dfy ===
/** src/main.ts: the decisions the action takes around its calls to
    rustup, cargo and the GitHub API: the `check-release` argument list, the
    GitHub token, the choice of release asset, the environment defaults, and
    how cargo-semver-checks gets installed.
    Environment variables are a map (a missing key is an unset variable);
    the GitHub API, the download and the probes are parameters.
 */
module ActionMain {
  import opened Wrappers
  import opened Strings
  import Utils
  import Paths

  /* ---------------------------------------------------------------------- */
  /* getCheckReleaseArguments                                                */
  /* ---------------------------------------------------------------------- */

  const PackageOpt := "--package"
  const ExcludeOpt := "--exclude"
  const ManifestPathOpt := "--manifest-path"
  const ReleaseTypeOpt := "--release-type"
  const VerboseFlag := "--verbose"

  /** The five option names are different. */
  lemma OptionsDistinct()
    ensures PackageOpt != ExcludeOpt && PackageOpt != ManifestPathOpt && PackageOpt != ReleaseTypeOpt
    ensures PackageOpt != VerboseFlag && ExcludeOpt != ManifestPathOpt && ExcludeOpt != ReleaseTypeOpt
    ensures ExcludeOpt != VerboseFlag && ManifestPathOpt != ReleaseTypeOpt
    ensures ManifestPathOpt != VerboseFlag && ReleaseTypeOpt != VerboseFlag
  {
    assert PackageOpt[2] == 'p' && ExcludeOpt[2] == 'e' && ManifestPathOpt[2] == 'm';
    assert ReleaseTypeOpt[2] == 'r' && VerboseFlag[2] == 'v';
  }

  /** The inputs `check-release` is called with. Unset inputs are "". */
  datatype CheckReleaseInputs = CheckReleaseInputs(
    packages: seq<string>,  // input list `package`
    excludes: seq<string>,  // input list `exclude`
    manifestPath: string,   // input `manifest-path`
    releaseType: string,    // input `release-type`
    verbose: bool           // input `verbose`
  )

  /** `getCheckReleaseArguments`: the package options, then the exclude
      options, then the manifest path, then the release type, then the
      verbose flag, each group present only when its input is. */
  function CheckReleaseArguments(inp: CheckReleaseInputs): (argv: seq<string>)
    ensures |argv| == 2 * |inp.packages| + 2 * |inp.excludes|
                      + (if inp.manifestPath != "" then 2 else 0)
                      + (if inp.releaseType != "" then 2 else 0)
                      + (if inp.verbose then 1 else 0)
  {
    Utils.OptionFromList(PackageOpt, inp.packages)
    + (Utils.OptionFromList(ExcludeOpt, inp.excludes)
    + (Utils.OptionIfValueProvided(ManifestPathOpt, Some(inp.manifestPath))
    + (Utils.OptionIfValueProvided(ReleaseTypeOpt, Some(inp.releaseType))
    + (if inp.verbose then [VerboseFlag] else []))))
  }

  /** Where each input lands in the argument list: package pairs from
      position 0, exclude pairs right after them, then the manifest path,
      then the release type, and the verbose flag last. */
  lemma CheckReleaseLayout(inp: CheckReleaseInputs)
    ensures var argv := CheckReleaseArguments(inp);
            forall k :: 0 <= k < |inp.packages| ==>
              argv[2 * k] == PackageOpt && argv[2 * k + 1] == inp.packages[k]
    ensures var argv := CheckReleaseArguments(inp);
            var e := 2 * |inp.packages|;
            forall k :: 0 <= k < |inp.excludes| ==>
              argv[e + 2 * k] == ExcludeOpt && argv[e + 2 * k + 1] == inp.excludes[k]
    ensures var argv := CheckReleaseArguments(inp);
            var m := 2 * |inp.packages| + 2 * |inp.excludes|;
            inp.manifestPath != "" ==> argv[m] == ManifestPathOpt && argv[m + 1] == inp.manifestPath
    ensures var argv := CheckReleaseArguments(inp);
            var t := 2 * |inp.packages| + 2 * |inp.excludes| + (if inp.manifestPath != "" then 2 else 0);
            inp.releaseType != "" ==> argv[t] == ReleaseTypeOpt && argv[t + 1] == inp.releaseType
    ensures var argv := CheckReleaseArguments(inp);
            inp.verbose ==> argv[|argv| - 1] == VerboseFlag
  {
    PackagesLayout(inp);
    ExcludesLayout(inp);
    ValuesLayout(inp);
  }

  /** The argument list after the package pairs. */
  function AfterPackages(inp: CheckReleaseInputs): seq<string> {
    Utils.OptionFromList(ExcludeOpt, inp.excludes)
    + (Utils.OptionIfValueProvided(ManifestPathOpt, Some(inp.manifestPath))
    + AfterManifest(inp))
  }

  /** The argument list after the manifest path. */
  function AfterManifest(inp: CheckReleaseInputs): seq<string> {
    Utils.OptionIfValueProvided(ReleaseTypeOpt, Some(inp.releaseType))
    + (if inp.verbose then [VerboseFlag] else [])
  }

  lemma PackagesLayout(inp: CheckReleaseInputs)
    ensures CheckReleaseArguments(inp) == Utils.OptionFromList(PackageOpt, inp.packages) + AfterPackages(inp)
    ensures var argv := CheckReleaseArguments(inp);
            forall k :: 0 <= k < |inp.packages| ==>
              argv[2 * k] == PackageOpt && argv[2 * k + 1] == inp.packages[k]
  {
    var ps := Utils.OptionFromList(PackageOpt, inp.packages);
    var argv := ps + AfterPackages(inp);
    assert argv == CheckReleaseArguments(inp);
    assert forall k :: 0 <= k < |ps| ==> argv[k] == ps[k];
  }

  lemma ExcludesLayout(inp: CheckReleaseInputs)
    ensures var argv := CheckReleaseArguments(inp);
            var e := 2 * |inp.packages|;
            forall k :: 0 <= k < |inp.excludes| ==>
              argv[e + 2 * k] == ExcludeOpt && argv[e + 2 * k + 1] == inp.excludes[k]
  {
    PackagesLayout(inp);
    var argv := CheckReleaseArguments(inp);
    var e := 2 * |inp.packages|;
    var es := Utils.OptionFromList(ExcludeOpt, inp.excludes);
    var rest := AfterPackages(inp);
    assert forall k :: 0 <= k < |es| ==> rest[k] == es[k];
    forall k | 0 <= k < |es|
      ensures argv[e + k] == es[k]
    {
      assert argv[e + k] == rest[k];
    }
  }

  /** From the manifest option on, the argument list is the manifest pair
      (if any) followed by the rest. */
  lemma FromManifest(inp: CheckReleaseInputs)
    ensures var argv := CheckReleaseArguments(inp);
            var m := 2 * |inp.packages| + 2 * |inp.excludes|;
            m <= |argv|
            && argv[m..] == Utils.OptionIfValueProvided(ManifestPathOpt, Some(inp.manifestPath)) + AfterManifest(inp)
  {
    PackagesLayout(inp);
    var argv := CheckReleaseArguments(inp);
    var es := Utils.OptionFromList(ExcludeOpt, inp.excludes);
    assert argv[2 * |inp.packages|..] == AfterPackages(inp);
    assert AfterPackages(inp)[|es|..]
        == Utils.OptionIfValueProvided(ManifestPathOpt, Some(inp.manifestPath)) + AfterManifest(inp);
  }

  lemma ValuesLayout(inp: CheckReleaseInputs)
    ensures var argv := CheckReleaseArguments(inp);
            var m := 2 * |inp.packages| + 2 * |inp.excludes|;
            inp.manifestPath != "" ==> argv[m] == ManifestPathOpt && argv[m + 1] == inp.manifestPath
    ensures var argv := CheckReleaseArguments(inp);
            var t := 2 * |inp.packages| + 2 * |inp.excludes| + (if inp.manifestPath != "" then 2 else 0);
            inp.releaseType != "" ==> argv[t] == ReleaseTypeOpt && argv[t + 1] == inp.releaseType
    ensures var argv := CheckReleaseArguments(inp);
            inp.verbose ==> argv[|argv| - 1] == VerboseFlag
  {
    FromManifest(inp);
    var argv := CheckReleaseArguments(inp);
    var m := 2 * |inp.packages| + 2 * |inp.excludes|;
    var ms := Utils.OptionIfValueProvided(ManifestPathOpt, Some(inp.manifestPath));
    var from := argv[m..];
    var tail := AfterManifest(inp);
    if inp.manifestPath != "" {
      assert argv[m] == from[0] && argv[m + 1] == from[1];
    }
    TailLayout(argv, m + |ms|, tail, inp);
  }

  /** The release-type pair and the verbose flag, read from the end of the
      list. */
  lemma TailLayout(argv: seq<string>, t: nat, tail: seq<string>, inp: CheckReleaseInputs)
    requires t <= |argv| && argv[t..] == tail && tail == AfterManifest(inp)
    ensures inp.releaseType != "" ==> argv[t] == ReleaseTypeOpt && argv[t + 1] == inp.releaseType
    ensures inp.verbose ==> argv[|argv| - 1] == VerboseFlag
  {
    if inp.releaseType != "" {
      assert argv[t] == tail[0] && argv[t + 1] == tail[1];
    }
    if inp.verbose {
      assert argv[|argv| - 1] == tail[|tail| - 1];
    }
  }

  /** The options that take the next argument as their value. */
  predicate TakesValue(opt: string) {
    opt == PackageOpt || opt == ExcludeOpt || opt == ManifestPathOpt || opt == ReleaseTypeOpt
  }

  /** Records one option and its value the way `check-release` reads them:
      list options accumulate, the others keep their value. */
  function Record(acc: CheckReleaseInputs, opt: string, value: string): CheckReleaseInputs
    requires TakesValue(opt)
  {
    if opt == PackageOpt then acc.(packages := acc.packages + [value])
    else if opt == ExcludeOpt then acc.(excludes := acc.excludes + [value])
    else if opt == ManifestPathOpt then acc.(manifestPath := value)
    else acc.(releaseType := value)
  }

  /** Reads an argument list back into inputs, starting from `acc`; `None`
      when an argument is not one of the options or a value is missing. */
  function ParseFrom(argv: seq<string>, acc: CheckReleaseInputs): Option<CheckReleaseInputs>
    decreases |argv|
  {
    if argv == [] then Some(acc)
    else if argv[0] == VerboseFlag then ParseFrom(argv[1..], acc.(verbose := true))
    else if TakesValue(argv[0]) && |argv| >= 2 then ParseFrom(argv[2..], Record(acc, argv[0], argv[1]))
    else None
  }

  const NoInputs := CheckReleaseInputs([], [], "", "", false)

  function ParseCheckRelease(argv: seq<string>): Option<CheckReleaseInputs> {
    ParseFrom(argv, NoInputs)
  }

  /** An option followed by its value is recorded, and reading goes on
      after the value. */
  lemma ParseValueStep(opt: string, value: string, rest: seq<string>, acc: CheckReleaseInputs)
    requires TakesValue(opt)
    ensures ParseFrom([opt, value] + rest, acc) == ParseFrom(rest, Record(acc, opt, value))
  {
    OptionsDistinct();
    var argv := [opt, value] + rest;
    assert argv[0] == opt && argv[1] == value && argv[2..] == rest;
  }

  /** `acc` with `values` appended to the list the option fills. */
  function WithList(acc: CheckReleaseInputs, opt: string, values: seq<string>): CheckReleaseInputs {
    if opt == PackageOpt then acc.(packages := acc.packages + values)
    else acc.(excludes := acc.excludes + values)
  }

  /** Recording one value and then a list is recording the longer list. */
  lemma WithListCons(acc: CheckReleaseInputs, opt: string, value: string, values: seq<string>)
    requires opt == PackageOpt || opt == ExcludeOpt
    ensures WithList(Record(acc, opt, value), opt, values) == WithList(acc, opt, [value] + values)
  {
    OptionsDistinct();
    assert acc.packages + [value] + values == acc.packages + ([value] + values);
    assert acc.excludes + [value] + values == acc.excludes + ([value] + values);
  }

  /** A list option's arguments are read back as that list, in order. */
  lemma {:induction false} ListOptionRoundTrip(opt: string, values: seq<string>, rest: seq<string>,
                                               acc: CheckReleaseInputs)
    requires opt == PackageOpt || opt == ExcludeOpt
    ensures ParseFrom(Utils.OptionFromList(opt, values) + rest, acc) == ParseFrom(rest, WithList(acc, opt, values))
    decreases |values|
  {
    var flags := Utils.OptionFromList(opt, values);
    if values == [] {
      assert flags + rest == rest;
      assert acc.packages + values == acc.packages && acc.excludes + values == acc.excludes;
    } else {
      var tail := Utils.OptionFromList(opt, values[1..]);
      assert flags + rest == [opt, values[0]] + (tail + rest) by {
        assert flags == [opt, values[0]] + tail;
      }
      ParseValueStep(opt, values[0], tail + rest, acc);
      ListOptionRoundTrip(opt, values[1..], rest, Record(acc, opt, values[0]));
      WithListCons(acc, opt, values[0], values[1..]);
      assert [values[0]] + values[1..] == values;
    }
  }

  /** A single-value option's arguments are read back as its value, ""
      when the option was left out. */
  lemma ValueOptionRoundTrip(opt: string, value: string, rest: seq<string>, acc: CheckReleaseInputs)
    requires opt == ManifestPathOpt || opt == ReleaseTypeOpt
    requires opt == ManifestPathOpt ==> acc.manifestPath == ""
    requires opt == ReleaseTypeOpt ==> acc.releaseType == ""
    ensures ParseFrom(Utils.OptionIfValueProvided(opt, Some(value)) + rest, acc)
         == ParseFrom(rest, if opt == ManifestPathOpt then acc.(manifestPath := value)
                            else acc.(releaseType := value))
  {
    OptionsDistinct();
    if value == "" {
      assert Utils.OptionIfValueProvided(opt, Some(value)) + rest == rest;
    } else {
      ParseValueStep(opt, value, rest, acc);
    }
  }

  /** The verbose flag, when present, is read back as true. */
  lemma VerboseRoundTrip(verbose: bool, acc: CheckReleaseInputs)
    ensures ParseFrom(if verbose then [VerboseFlag] else [], acc) == Some(acc.(verbose := acc.verbose || verbose))
  {
    if verbose {
      assert [VerboseFlag][1..] == [];
    }
  }

  /** The argument list determines the inputs it was built from: reading it
      back gives every list in order, both values and the verbose flag. */
  lemma CheckReleaseRoundTrip(inp: CheckReleaseInputs)
    ensures ParseCheckRelease(CheckReleaseArguments(inp)) == Some(inp)
  {
    var manifest := Utils.OptionIfValueProvided(ManifestPathOpt, Some(inp.manifestPath));
    var release := Utils.OptionIfValueProvided(ReleaseTypeOpt, Some(inp.releaseType));
    var verbose: seq<string> := if inp.verbose then [VerboseFlag] else [];
    var r3 := release + verbose;
    var r2 := manifest + r3;
    var r1 := Utils.OptionFromList(ExcludeOpt, inp.excludes) + r2;
    var a1 := NoInputs.(packages := inp.packages);
    var a2 := a1.(excludes := inp.excludes);
    var a3 := a2.(manifestPath := inp.manifestPath);
    var a4 := a3.(releaseType := inp.releaseType);
    OptionsDistinct();
    calc {
      ParseCheckRelease(CheckReleaseArguments(inp));
      ParseFrom(Utils.OptionFromList(PackageOpt, inp.packages) + r1, NoInputs);
      { ListOptionRoundTrip(PackageOpt, inp.packages, r1, NoInputs);
        assert WithList(NoInputs, PackageOpt, inp.packages) == a1; }
      ParseFrom(r1, a1);
      { ListOptionRoundTrip(ExcludeOpt, inp.excludes, r2, a1);
        assert WithList(a1, ExcludeOpt, inp.excludes) == a2; }
      ParseFrom(r2, a2);
      { ValueOptionRoundTrip(ManifestPathOpt, inp.manifestPath, r3, a2); }
      ParseFrom(r3, a3);
      { ValueOptionRoundTrip(ReleaseTypeOpt, inp.releaseType, verbose, a3); }
      ParseFrom(verbose, a4);
      { VerboseRoundTrip(inp.verbose, a4); }
      Some(a4.(verbose := a4.verbose || inp.verbose));
      Some(inp);
    }
  }

  /** Different inputs never produce the same argument list. */
  lemma CheckReleaseArgumentsInjective(a: CheckReleaseInputs, b: CheckReleaseInputs)
    ensures CheckReleaseArguments(a) == CheckReleaseArguments(b) ==> a == b
  {
    CheckReleaseRoundTrip(a);
    CheckReleaseRoundTrip(b);
  }

  /** How often `--verbose` occurs in a list option's arguments: as often as
      it occurs among the values. */
  lemma {:induction false} VerboseAmongListValues(opt: string, values: seq<string>)
    requires opt != VerboseFlag
    ensures multiset(Utils.OptionFromList(opt, values))[VerboseFlag] == multiset(values)[VerboseFlag]
    decreases |values|
  {
    if values != [] {
      var flags := Utils.OptionFromList(opt, values);
      var tail := Utils.OptionFromList(opt, values[1..]);
      assert flags == [opt, values[0]] + tail;
      assert multiset(flags) == multiset{opt, values[0]} + multiset(tail);
      VerboseAmongListValues(opt, values[1..]);
      assert values == [values[0]] + values[1..];
    }
  }

  /** When no input value is itself `--verbose`, the flag occurs once if the
      verbose input is true and not at all otherwise. */
  lemma VerboseOccursOnceIffRequested(inp: CheckReleaseInputs)
    requires VerboseFlag !in inp.packages && VerboseFlag !in inp.excludes
    requires inp.manifestPath != VerboseFlag && inp.releaseType != VerboseFlag
    ensures multiset(CheckReleaseArguments(inp))[VerboseFlag] == if inp.verbose then 1 else 0
  {
    OptionsDistinct();
    var packages := Utils.OptionFromList(PackageOpt, inp.packages);
    var excludes := Utils.OptionFromList(ExcludeOpt, inp.excludes);
    var manifest := Utils.OptionIfValueProvided(ManifestPathOpt, Some(inp.manifestPath));
    var release := Utils.OptionIfValueProvided(ReleaseTypeOpt, Some(inp.releaseType));
    var verbose: seq<string> := if inp.verbose then [VerboseFlag] else [];
    assert multiset(CheckReleaseArguments(inp))
        == multiset(packages) + (multiset(excludes) + (multiset(manifest) + (multiset(release) + multiset(verbose))));
    VerboseAmongListValues(PackageOpt, inp.packages);
    VerboseAmongListValues(ExcludeOpt, inp.excludes);
    assert multiset(inp.packages)[VerboseFlag] == 0;
    assert multiset(inp.excludes)[VerboseFlag] == 0;
    assert multiset(manifest)[VerboseFlag] == 0;
    assert multiset(release)[VerboseFlag] == 0;
  }

  /* ---------------------------------------------------------------------- */
  /* getGitHubToken                                                          */
  /* ---------------------------------------------------------------------- */

  const MissingTokenMessage := "Querying the GitHub API is possible only if the GitHub token is set."

  /** `getGitHubToken`: the GITHUB_TOKEN variable when set and non-empty,
      else the `github-token` input; an error when both are empty. */
  function GitHubToken(envToken: Option<string>, inputToken: string): (r: Result<string, string>)
    ensures r.Success? <==> Provided(envToken) || inputToken != ""
    ensures r.Success? ==> r.value != ""
    ensures r.Success? && Provided(envToken) ==> r.value == envToken.value
    ensures r.Success? && !Provided(envToken) ==> r.value == inputToken
    ensures r.Failure? ==> r.error == MissingTokenMessage
  {
    var token := if Provided(envToken) then envToken.value else inputToken;
    if token == "" then Failure(MissingTokenMessage) else Success(token)
  }

  /* ---------------------------------------------------------------------- */
  /* getCargoSemverChecksDownloadURL                                         */
  /* ---------------------------------------------------------------------- */

  /** A release asset as the GitHub API lists it. */
  datatype Asset = Asset(name: string, url: string)

  /** The GitHub API for the cargo-semver-checks repository: the latest
      release and the release with a given tag, each as its asset list or
      the error the request fails with. */
  datatype ReleaseApi = ReleaseApi(
    latest: Result<seq<Asset>, string>,
    byTag: string -> Result<seq<Asset>, string>
  )

  /** The asset file name suffix for a target triple. */
  function AssetSuffix(target: string): string {
    target + ".tar.gz"
  }

  /** `assets.find(...)` on the suffix: the index of the first asset whose
      name ends with the suffix. */
  function FindAsset(assets: seq<Asset>, suffix: string): (r: Option<nat>)
    ensures r.Some? ==> r.value < |assets| && EndsWith(assets[r.value].name, suffix)
    ensures r.Some? ==> forall i :: 0 <= i < r.value ==> !EndsWith(assets[i].name, suffix)
    ensures r.None? <==> forall i :: 0 <= i < |assets| ==> !EndsWith(assets[i].name, suffix)
    decreases |assets|
  {
    if assets == [] then None
    else if EndsWith(assets[0].name, suffix) then Some(0)
    else
      match FindAsset(assets[1..], suffix)
      case None => None
      case Some(i) => Some(i + 1)
  }

  function MissingAssetMessage(target: string): string {
    "Couldn't find a release for target " + target + "."
  }

  /** The URL of the first matching asset of a release, or the error. */
  function AssetUrl(assets: seq<Asset>, target: string): (r: Result<string, string>)
    ensures r.Failure? <==> forall i :: 0 <= i < |assets| ==> !EndsWith(assets[i].name, AssetSuffix(target))
    ensures r.Failure? ==> r.error == MissingAssetMessage(target)
    ensures r.Success? ==> exists i :: 0 <= i < |assets| && r.value == assets[i].url
                                       && EndsWith(assets[i].name, AssetSuffix(target))
                                       && forall j :: 0 <= j < i ==> !EndsWith(assets[j].name, AssetSuffix(target))
  {
    match FindAsset(assets, AssetSuffix(target))
    case None => Failure(MissingAssetMessage(target))
    case Some(i) => Success(assets[i].url)
  }

  /** Where a release list puts a matching asset first, that asset's URL is
      the one chosen, whatever follows. */
  lemma {:induction false} FirstMatchingAssetWins(skipped: seq<Asset>, hit: Asset, later: seq<Asset>, target: string)
    requires forall i :: 0 <= i < |skipped| ==> !EndsWith(skipped[i].name, AssetSuffix(target))
    requires EndsWith(hit.name, AssetSuffix(target))
    ensures AssetUrl(skipped + [hit] + later, target) == Success(hit.url)
    decreases |skipped|
  {
    var assets := skipped + [hit] + later;
    if skipped == [] {
      assert assets[0] == hit;
    } else {
      assert assets[0] == skipped[0];
      assert assets[1..] == skipped[1..] + [hit] + later;
      FirstMatchingAssetWins(skipped[1..], hit, later, target);
    }
  }

  /** Which release the download URL is taken from. */
  predicate IsLatest(version: string) {
    version == "latest"
  }

  /** The release request for a version: the latest release, or the one
      tagged with the version. */
  function Release(api: ReleaseApi, version: string): Result<seq<Asset>, string> {
    if IsLatest(version) then api.latest else api.byTag(version)
  }

  /** `getCargoSemverChecksDownloadURL` with the tagged release awaited like
      the latest one: the token is required first, then the release is
      fetched and its first matching asset chosen. */
  function DownloadUrl(target: string, version: string, token: Result<string, string>,
                       api: ReleaseApi): (r: Result<string, string>)
    ensures token.Failure? ==> r == Failure(token.error)
    ensures token.Success? && IsLatest(version) ==>
              r == (if api.latest.Failure? then Failure(api.latest.error) else AssetUrl(api.latest.value, target))
    ensures token.Success? && !IsLatest(version) ==>
              r == (var rel := api.byTag(version);
                    if rel.Failure? then Failure(rel.error) else AssetUrl(rel.value, target))
  {
    var _ :- token;
    var assets :- Release(api, version);
    AssetUrl(assets, target)
  }

  /** The message of the TypeError raised by reading `.data.assets` off a
      promise, whose `data` is undefined. */
  const UnawaitedReleaseMessage := "Cannot read properties of undefined (reading 'assets')"

  /** `getCargoSemverChecksDownloadURL` as written: for a pinned version the
      release request is not awaited, so the code reads `data` off the
      pending promise and fails before looking at any asset. */
  function DownloadUrlAsWritten(target: string, version: string, token: Result<string, string>,
                                api: ReleaseApi): (r: Result<string, string>)
    ensures token.Failure? ==> r == Failure(token.error)
    ensures IsLatest(version) ==> r == DownloadUrl(target, version, token, api)
    ensures !IsLatest(version) ==> r.Failure?
    ensures !IsLatest(version) && token.Success? ==> r.error == UnawaitedReleaseMessage
  {
    var _ :- token;
    if IsLatest(version) then
      var assets :- api.latest;
      AssetUrl(assets, target)
    else Failure(UnawaitedReleaseMessage)
  }

  /** As written, no pinned version is ever downloaded: even a release whose
      first matching asset is `hit` yields an error. */
  lemma PinnedVersionNeverDownloadsAsWritten(target: string, version: string, token: string,
                                             api: ReleaseApi, skipped: seq<Asset>, hit: Asset, later: seq<Asset>)
    requires !IsLatest(version)
    requires api.byTag(version) == Success(skipped + [hit] + later)
    requires forall i :: 0 <= i < |skipped| ==> !EndsWith(skipped[i].name, AssetSuffix(target))
    requires EndsWith(hit.name, AssetSuffix(target))
    ensures DownloadUrl(target, version, Success(token), api) == Success(hit.url)
    ensures DownloadUrlAsWritten(target, version, Success(token), api).Failure?
  {
    FirstMatchingAssetWins(skipped, hit, later, target);
  }

  /* ---------------------------------------------------------------------- */
  /* installCargoSemverChecks                                                */
  /* ---------------------------------------------------------------------- */

  /** What the precompiled install needs from outside: the platform, the
      token sources, the API, and the download-and-extract step, which maps
      a URL and token to the extracted directory or an error. */
  datatype Environment = Environment(
    platform: string,
    envToken: Option<string>,
    inputToken: string,
    api: ReleaseApi,
    fetch: (string, string) -> Result<string, string>
  )

  /** `installCargoSemverChecksFromPrecompiledBinary`: the directory added
      to PATH, or the error that aborted the install. The download URL is
      computed by `url`. */
  function InstallFromPrecompiledWith(version: string, e: Environment,
                                      url: (string, string, Result<string, string>, ReleaseApi) -> Result<string, string>)
    : (r: Result<string, string>)
    ensures Utils.PlatformMatchingTarget(e.platform).Failure? ==> r == Failure(Utils.UnsupportedRunner)
    ensures r.Success? ==> Utils.PlatformMatchingTarget(e.platform).Success?
                           && GitHubToken(e.envToken, e.inputToken).Success?
  {
    var target :- Utils.PlatformMatchingTarget(e.platform);
    var location :- url(target, version, GitHubToken(e.envToken, e.inputToken), e.api);
    var token :- GitHubToken(e.envToken, e.inputToken);
    e.fetch(location, token)
  }

  /** The precompiled install with the tagged release awaited. Its failures
      are checked in order: an unsupported runner, a missing token, a failed
      release request, a release without the asset; only then is the asset
      fetched. */
  function InstallFromPrecompiled(version: string, e: Environment): (r: Result<string, string>)
    ensures var target := Utils.PlatformMatchingTarget(e.platform);
            var token := GitHubToken(e.envToken, e.inputToken);
            var rel := Release(e.api, version);
            && (target.Failure? ==> r == Failure(Utils.UnsupportedRunner))
            && (target.Success? && token.Failure? ==> r == Failure(MissingTokenMessage))
            && (target.Success? && token.Success? && rel.Failure? ==> r == Failure(rel.error))
            && (target.Success? && token.Success? && rel.Success? ==>
                  var url := AssetUrl(rel.value, target.value);
                  && (url.Failure? ==> r == Failure(MissingAssetMessage(target.value)))
                  && (url.Success? ==> r == e.fetch(url.value, token.value)))
  {
    InstallFromPrecompiledWith(version, e, DownloadUrl)
  }

  /** The precompiled install as written: for a pinned version it always
      fails, and for "latest" it is the install above. */
  function InstallFromPrecompiledAsWritten(version: string, e: Environment): (r: Result<string, string>)
    ensures IsLatest(version) ==> r == InstallFromPrecompiled(version, e)
    ensures !IsLatest(version) ==> r.Failure?
  {
    InstallFromPrecompiledWith(version, e, DownloadUrlAsWritten)
  }

  /** The arguments of the fallback `cargo install`. */
  const CargoInstallArguments := ["install", "cargo-semver-checks", "--locked"]

  /** How cargo-semver-checks ends up available. */
  datatype Installation =
    | AlreadyInstalled                  // found on PATH, nothing done
    | Precompiled(binPath: string)      // downloaded binary, directory added to PATH
    | CargoInstall(cause: string)       // `cargo install` run after this error; whether it builds is not modelled

  /** `installCargoSemverChecks`: `which` is what `io.which` found for the
      tool ("" when it is not on PATH), `precompiled` the outcome of the
      precompiled install, attempted only when the tool is missing. */
  function InstallCargoSemverChecks(which: string, precompiled: Result<string, string>): (r: Installation)
    ensures r.AlreadyInstalled? <==> which != ""
    ensures r.Precompiled? <==> which == "" && precompiled.Success?
    ensures r.CargoInstall? <==> which == "" && precompiled.Failure?
    ensures r.Precompiled? ==> r.binPath == precompiled.value
    ensures r.CargoInstall? ==> r.cause == precompiled.error
  {
    if which != "" then AlreadyInstalled
    else match precompiled
      case Success(binPath) => Precompiled(binPath)
      case Failure(error) => CargoInstall(error)
  }

  /** What is left of the action once the install step is over: the
      installation, or the rejection of a request nobody awaited, which ends
      the Node process (its default for unhandled rejections). */
  datatype InstallOutcome = Installed(installation: Installation) | UnhandledRejection(error: string)

  /** `installCargoSemverChecks` as written. For a missing tool and a pinned
      version, the tag request is sent (after the runner and token checks)
      and never awaited: when it is rejected the process ends; otherwise the
      install goes on as `InstallCargoSemverChecks` says. */
  function InstallCargoSemverChecksAsWritten(which: string, version: string, e: Environment): (r: InstallOutcome)
    ensures r.UnhandledRejection? <==>
              && which == "" && !IsLatest(version)
              && Utils.PlatformMatchingTarget(e.platform).Success?
              && GitHubToken(e.envToken, e.inputToken).Success?
              && e.api.byTag(version).Failure?
    ensures r.UnhandledRejection? ==> r.error == e.api.byTag(version).error
    ensures r.Installed? ==> r.installation == InstallCargoSemverChecks(which, InstallFromPrecompiledAsWritten(version, e))
  {
    var sent := which == "" && !IsLatest(version)
                && Utils.PlatformMatchingTarget(e.platform).Success?
                && GitHubToken(e.envToken, e.inputToken).Success?;
    var request := e.api.byTag(version);
    if sent && request.Failure? then UnhandledRejection(request.error)
    else Installed(InstallCargoSemverChecks(which, InstallFromPrecompiledAsWritten(version, e)))
  }

  /** As written, a missing tool with a pinned version is never installed
      from the precompiled binary: the action either ends on the rejected tag
      request or builds the tool with `cargo install`, and it does the latter
      whenever the tag request succeeds. */
  lemma PinnedVersionFallsBackAsWritten(version: string, e: Environment)
    requires !IsLatest(version)
    ensures var r := InstallCargoSemverChecksAsWritten("", version, e);
            && (r.UnhandledRejection? || r.installation.CargoInstall?)
            && (e.api.byTag(version).Success? ==> r.Installed? && r.installation.CargoInstall?)
  {
  }

  /** With the release request awaited, a pinned version whose release lists
      the runner's asset (after any number of other assets) installs the
      downloaded binary. */
  lemma PinnedVersionDownloads(version: string, e: Environment, skipped: seq<Asset>, hit: Asset,
                               later: seq<Asset>, target: string, binPath: string)
    requires !IsLatest(version)
    requires Utils.PlatformMatchingTarget(e.platform) == Success(target)
    requires GitHubToken(e.envToken, e.inputToken).Success?
    requires e.api.byTag(version) == Success(skipped + [hit] + later)
    requires forall i :: 0 <= i < |skipped| ==> !EndsWith(skipped[i].name, AssetSuffix(target))
    requires EndsWith(hit.name, AssetSuffix(target))
    requires e.fetch(hit.url, GitHubToken(e.envToken, e.inputToken).value) == Success(binPath)
    ensures InstallCargoSemverChecks("", InstallFromPrecompiled(version, e)) == Precompiled(binPath)
  {
    FirstMatchingAssetWins(skipped, hit, later, target);
  }

  /* ---------------------------------------------------------------------- */
  /* installRustUpIfRequested                                                */
  /* ---------------------------------------------------------------------- */

  /** `process.env`: a missing key is an unset variable. */
  type Env = map<string, string>

  /** JavaScript truthiness of `process.env[key]`. */
  predicate IsSet(env: Env, key: string) {
    key in env && env[key] != ""
  }

  /** `key` is set to the same value, or unset, in both environments. */
  predicate Agree(a: Env, b: Env, key: string) {
    (key in a <==> key in b) && (key in a ==> a[key] == b[key])
  }

  /** The environments differ at most in the variables `keys`. */
  ghost predicate SameOutside(a: Env, b: Env, keys: set<string>) {
    forall k :: k !in keys ==> Agree(a, b, k)
  }

  lemma SameOutsideTrans(a: Env, b: Env, c: Env, k1: set<string>, k2: set<string>)
    requires SameOutside(a, b, k1) && SameOutside(b, c, k2)
    ensures SameOutside(a, c, k1 + k2)
  {
  }

  /** `process.env[key] ||= value`. */
  function DefaultVar(env: Env, key: string, value: string): (r: Env)
    ensures key in r
    ensures IsSet(env, key) ==> r[key] == env[key]
    ensures !IsSet(env, key) ==> r[key] == value
    ensures SameOutside(env, r, {key})
  {
    if IsSet(env, key) then env else env[key := value]
  }

  /** Defaulting a variable a second time changes nothing, whatever the
      second default. */
  lemma DefaultVarIdempotent(env: Env, key: string, value: string, again: string)
    requires value != ""
    ensures DefaultVar(DefaultVar(env, key, value), key, again) == DefaultVar(env, key, value)
  {
  }

  const RustupToolchainVar := "RUSTUP_TOOLCHAIN"
  const IncrementalVar := "CARGO_INCREMENTAL"
  const TermColorVar := "CARGO_TERM_COLOR"
  const ProtocolVar := "CARGO_REGISTRIES_CRATES_IO_PROTOCOL"

  /** The four variables are different names. */
  lemma VariablesDistinct()
    ensures RustupToolchainVar != IncrementalVar && RustupToolchainVar != TermColorVar
    ensures RustupToolchainVar != ProtocolVar && IncrementalVar != TermColorVar
    ensures IncrementalVar != ProtocolVar && TermColorVar != ProtocolVar
  {
    assert RustupToolchainVar[0] != IncrementalVar[0];
    assert RustupToolchainVar[0] != TermColorVar[0];
    assert RustupToolchainVar[0] != ProtocolVar[0];
    assert IncrementalVar[6] != TermColorVar[6];
    assert IncrementalVar[6] != ProtocolVar[6];
    assert TermColorVar[6] != ProtocolVar[6];
  }

  /** The toolchain input, "stable" when empty; "manual" means rustup is
      left alone. */
  function Toolchain(input: string): (t: string)
    ensures t != ""
    ensures input != "" ==> t == input
    ensures input == "" ==> t == "stable"
  {
    OrElse(input, "stable")
  }

  /** RUSTUP_TOOLCHAIN is set to the toolchain unless it is "manual". */
  function SelectToolchain(env: Env, toolchain: string): (r: Env)
    ensures toolchain != "manual" ==> RustupToolchainVar in r && r[RustupToolchainVar] == toolchain
    ensures toolchain == "manual" ==> r == env
    ensures SameOutside(env, r, {RustupToolchainVar})
  {
    if toolchain != "manual" then env[RustupToolchainVar := toolchain] else env
  }

  /** Whether sparse registry access is enabled for a normalised rustc
      version: not on 1.66 and 1.67, where it is unstable. */
  predicate SparseSupported(rustcVersion: string) {
    !StartsWith(rustcVersion, "rustc-1.66") && !StartsWith(rustcVersion, "rustc-1.67")
  }

  /** The crates.io protocol is set to sparse when it is not set yet and the
      compiler supports it. */
  function SelectProtocol(env: Env, rustcVersion: string): (r: Env)
    ensures !IsSet(env, ProtocolVar) && SparseSupported(rustcVersion)
            ==> ProtocolVar in r && r[ProtocolVar] == "sparse"
    ensures IsSet(env, ProtocolVar) || !SparseSupported(rustcVersion) ==> r == env
    ensures SameOutside(env, r, {ProtocolVar})
  {
    if !IsSet(env, ProtocolVar) && SparseSupported(rustcVersion)
    then env[ProtocolVar := "sparse"] else env
  }

  /** The variables `installRustUpIfRequested` may touch. */
  const ManagedVars := {RustupToolchainVar, IncrementalVar, TermColorVar, ProtocolVar}

  /** `installRustUpIfRequested`: the toolchain rustup is asked to install
      (none for "manual") and the environment afterwards, which differs from
      the one before only in the four variables it manages. `rustcVersion` is
      what `getRustcVersion` returns once the toolchain is in place: the
      output of `rustc --version` normalised by `Utils.RemoveWhitespaces`. */
  function InstallRustUpIfRequested(env: Env, toolchainInput: string, rustcVersion: string)
    : (r: (Option<string>, Env))
    ensures r.0.Some? <==> Toolchain(toolchainInput) != "manual"
    ensures r.0.Some? ==> r.0.value == Toolchain(toolchainInput)
    ensures SameOutside(env, r.1, ManagedVars)
  {
    var toolchain := Toolchain(toolchainInput);
    var e1 := SelectToolchain(env, toolchain);
    var e2 := DefaultVar(e1, IncrementalVar, "0");
    var e3 := DefaultVar(e2, TermColorVar, "always");
    var e4 := SelectProtocol(e3, rustcVersion);
    SameOutsideTrans(env, e1, e2, {RustupToolchainVar}, {IncrementalVar});
    SameOutsideTrans(env, e2, e3, {RustupToolchainVar, IncrementalVar}, {TermColorVar});
    SameOutsideTrans(env, e3, e4, {RustupToolchainVar, IncrementalVar, TermColorVar}, {ProtocolVar});
    assert {RustupToolchainVar, IncrementalVar, TermColorVar} + {ProtocolVar} == ManagedVars;
    (if toolchain != "manual" then Some(toolchain) else None, e4)
  }

  /** RUSTUP_TOOLCHAIN names the toolchain unless that is "manual", in which
      case the variable is left as it was. */
  lemma RustupToolchainSelected(env: Env, toolchainInput: string, rustcVersion: string)
    ensures var r := InstallRustUpIfRequested(env, toolchainInput, rustcVersion).1;
            var toolchain := Toolchain(toolchainInput);
            && (toolchain != "manual" ==> RustupToolchainVar in r && r[RustupToolchainVar] == toolchain)
            && (toolchain == "manual" ==> Agree(env, r, RustupToolchainVar))
  {
    VariablesDistinct();
    var toolchain := Toolchain(toolchainInput);
    var e1 := SelectToolchain(env, toolchain);
    var e2 := DefaultVar(e1, IncrementalVar, "0");
    var e3 := DefaultVar(e2, TermColorVar, "always");
    var e4 := SelectProtocol(e3, rustcVersion);
    assert Agree(e1, e2, RustupToolchainVar);
    assert Agree(e2, e3, RustupToolchainVar);
    assert Agree(e3, e4, RustupToolchainVar);
  }

  /** CARGO_INCREMENTAL becomes "0" and CARGO_TERM_COLOR "always" unless they
      already hold a non-empty value, which is kept. */
  lemma CargoDefaultsApplied(env: Env, toolchainInput: string, rustcVersion: string)
    ensures var r := InstallRustUpIfRequested(env, toolchainInput, rustcVersion).1;
            && IncrementalVar in r && TermColorVar in r
            && r[IncrementalVar] == (if IsSet(env, IncrementalVar) then env[IncrementalVar] else "0")
            && r[TermColorVar] == (if IsSet(env, TermColorVar) then env[TermColorVar] else "always")
  {
    VariablesDistinct();
    var toolchain := Toolchain(toolchainInput);
    var e1 := SelectToolchain(env, toolchain);
    var e2 := DefaultVar(e1, IncrementalVar, "0");
    var e3 := DefaultVar(e2, TermColorVar, "always");
    var e4 := SelectProtocol(e3, rustcVersion);
    assert Agree(env, e1, IncrementalVar) && Agree(e2, e3, IncrementalVar) && Agree(e3, e4, IncrementalVar);
    assert Agree(env, e1, TermColorVar) && Agree(e1, e2, TermColorVar) && Agree(e3, e4, TermColorVar);
  }

  /** The crates.io protocol becomes "sparse" exactly when it was not set and
      the normalised rustc version is neither 1.66 nor 1.67; otherwise it is
      left as it was. */
  lemma SparseProtocolSelected(env: Env, toolchainInput: string, rustcVersion: string)
    ensures var r := InstallRustUpIfRequested(env, toolchainInput, rustcVersion).1;
            if !IsSet(env, ProtocolVar) && SparseSupported(rustcVersion)
            then ProtocolVar in r && r[ProtocolVar] == "sparse"
            else Agree(env, r, ProtocolVar)
  {
    VariablesDistinct();
    var toolchain := Toolchain(toolchainInput);
    var e1 := SelectToolchain(env, toolchain);
    var e2 := DefaultVar(e1, IncrementalVar, "0");
    var e3 := DefaultVar(e2, TermColorVar, "always");
    assert Agree(env, e1, ProtocolVar) && Agree(e1, e2, ProtocolVar) && Agree(e2, e3, ProtocolVar);
  }

  /** Environments that agree on every variable are equal. */
  lemma AgreeEverywhere(a: Env, b: Env)
    requires forall k :: Agree(a, b, k)
    ensures a == b
  {
    forall k
      ensures k in a <==> k in b
    {
      assert Agree(a, b, k);
    }
    forall k | k in a
      ensures a[k] == b[k]
    {
      assert Agree(a, b, k);
    }
  }

  /** Running the step again with the same inputs leaves the environment as
      the first run left it. */
  lemma InstallRustUpIdempotent(env: Env, toolchainInput: string, rustcVersion: string)
    ensures var env1 := InstallRustUpIfRequested(env, toolchainInput, rustcVersion).1;
            InstallRustUpIfRequested(env1, toolchainInput, rustcVersion).1 == env1
  {
    var env1 := InstallRustUpIfRequested(env, toolchainInput, rustcVersion).1;
    var env2 := InstallRustUpIfRequested(env1, toolchainInput, rustcVersion).1;
    forall k
      ensures Agree(env1, env2, k)
    {
      if k == RustupToolchainVar {
        RustupToolchainSelected(env1, toolchainInput, rustcVersion);
        RustupToolchainSelected(env, toolchainInput, rustcVersion);
      } else if k == IncrementalVar || k == TermColorVar {
        CargoDefaultsApplied(env, toolchainInput, rustcVersion);
        CargoDefaultsApplied(env1, toolchainInput, rustcVersion);
      } else if k == ProtocolVar {
        SparseProtocolSelected(env, toolchainInput, rustcVersion);
        SparseProtocolSelected(env1, toolchainInput, rustcVersion);
      } else {
        assert k !in ManagedVars;
      }
    }
    AgreeEverywhere(env1, env2);
  }

  /* ---------------------------------------------------------------------- */
  /* runCargoSemverChecks and run                                            */
  /* ---------------------------------------------------------------------- */

  /** `CARGO_TARGET_DIR`. */
  const CargoTargetDir := "semver-checks/target"

  /** `runCargoSemverChecks`: the cargo arguments and the environment the
      command runs with. */
  function RunCargoSemverChecks(env: Env, inp: CheckReleaseInputs): (r: (seq<string>, Env))
    ensures |r.0| >= 2 && r.0[..2] == ["semver-checks", "check-release"]
    ensures ParseCheckRelease(r.0[2..]) == Some(inp)
    ensures r.1 == env[TargetDirVar := CargoTargetDir]
  {
    var argv := ["semver-checks", "check-release"] + CheckReleaseArguments(inp);
    assert argv[2..] == CheckReleaseArguments(inp);
    CheckReleaseRoundTrip(inp);
    (argv, env[TargetDirVar := CargoTargetDir])
  }

  const TargetDirVar := "CARGO_TARGET_DIR"

  /** The settings `run` derives from its inputs before doing anything: the
      release version ("latest" when the input is empty) and the directory
      holding the manifest. `manifestPath` is the resolved `manifest-path`
      input (resolved from "./" when empty). */
  function RunSettings(versionInput: string, manifestPath: string): (r: (string, string))
    requires Paths.Resolved(manifestPath)
    ensures r.0 != "" && (versionInput != "" ==> r.0 == versionInput)
    ensures versionInput == "" ==> IsLatest(r.0)
    ensures Paths.Resolved(r.1)
    ensures r.1 == Paths.ManifestDir(manifestPath)
  {
    (OrElse(versionInput, "latest"), Paths.ManifestDir(manifestPath))
  }
}

=== FILE: json.dfy ===
/** The fragment of `JSON.stringify` the run-dependent cache key feeds to its
    digest: strings, arrays of strings, and one-field objects.
 */
module Json {
  import Strings

  function HexDigit(d: nat): char
    requires d < 16
  {
    if d < 10 then Strings.DigitChar(d) else (('a' as int) + d - 10) as char
  }

  /** How `JSON.stringify` writes one character inside a string literal. */
  function EscapeChar(c: char): string {
    if c == '"' then "\\\""
    else if c == '\\' then "\\\\"
    else if c == '\U{0008}' then "\\b"
    else if c == '\U{000C}' then "\\f"
    else if c == '\n' then "\\n"
    else if c == '\r' then "\\r"
    else if c == '\t' then "\\t"
    else if (c as int) < 0x20 then "\\u00" + [HexDigit((c as int) / 16), HexDigit((c as int) % 16)]
    else [c]
  }

  function Escape(s: string): string {
    if s == "" then "" else EscapeChar(s[0]) + Escape(s[1..])
  }

  /** `JSON.stringify(s)` for a string. */
  function Quote(s: string): string {
    "\"" + Escape(s) + "\""
  }

  /** `JSON.stringify(xs)` for an array of strings. */
  function StringArray(xs: seq<string>): string {
    "[" + Strings.Join(seq(|xs|, i requires 0 <= i < |xs| => Quote(xs[i])), ",") + "]"
  }

  /** `JSON.stringify({ key: value })`, where `value` is already serialised. */
  function SingleField(key: string, value: string): string {
    "{" + Quote(key) + ":" + value + "}"
  }
}

=== FILE: paths.dfy ===
/** Node's POSIX `path.extname` and `path.dirname`, for the paths the action
    applies them to: the output of `path.resolve`.
 */
module Paths {
  import opened Strings

  /** A path as `path.resolve` returns it on POSIX: absolute, without a
      trailing separator (unless it is the root) and without empty segments. */
  predicate Resolved(p: string) {
    && |p| > 0
    && p[0] == '/'
    && (|p| == 1 || p[|p| - 1] != '/')
    && forall i :: 0 < i < |p| ==> p[i] == '/' ==> p[i - 1] != '/'
  }

  /** Index of the last `c` in `s`, or -1 when there is none. */
  function LastIndexOf(s: string, c: char): (r: int)
    ensures -1 <= r < |s|
    ensures r >= 0 ==> s[r] == c
    ensures forall i :: r < i < |s| ==> s[i] != c
  {
    if s == [] then -1
    else if s[|s| - 1] == c then |s| - 1
    else LastIndexOf(s[..|s| - 1], c)
  }

  /** The last segment of a resolved path ("" for the root). */
  function Basename(p: string): (b: string)
    requires Resolved(p)
    ensures forall i :: 0 <= i < |b| ==> b[i] != '/'
  {
    var k := LastIndexOf(p, '/');
    var b := p[k + 1..];
    assert forall i :: 0 <= i < |b| ==> b[i] != '/' by {
      forall i | 0 <= i < |b|
        ensures b[i] != '/'
      {
        assert b[i] == p[k + 1 + i];
      }
    }
    b
  }

  /** `path.extname` of a resolved path: from the last dot of the last segment
      on, or "" when that segment has no dot after its first character or is
      `..`. A trailing separator, which Node skips, cannot occur here. */
  function ExtName(p: string): (e: string)
    requires Resolved(p)
    ensures e != "" ==> e[0] == '.' && EndsWith(Basename(p), e) && |e| < |Basename(p)|
    ensures forall k :: 0 < k < |e| ==> e[k] != '.'
    ensures e != "" <==> Basename(p) != ".." && exists k :: 0 < k < |Basename(p)| && Basename(p)[k] == '.'
  {
    var b := Basename(p);
    var d := LastIndexOf(b, '.');
    var e := if d <= 0 || b == ".." then "" else b[d..];
    forall k | 0 < k < |e|
      ensures e[k] != '.'
    {
      assert e[k] == b[d + k];
    }
    assert d > 0 ==> 0 < d < |b| && b[d] == '.';
    e
  }

  /** `path.dirname` of a resolved path: everything before the last separator,
      or the root when that separator is the leading one. */
  function Dirname(p: string): string
    requires Resolved(p)
  {
    var k := LastIndexOf(p, '/');
    if k == 0 then "/" else p[..k]
  }

  /** The parent of a resolved path is resolved. */
  lemma DirnameResolved(p: string)
    requires Resolved(p)
    ensures Resolved(Dirname(p))
  {
    var k := LastIndexOf(p, '/');
    if k > 0 {
      var d := p[..k];
      assert d[0] == p[0];
      assert d[|d| - 1] == p[k - 1];
      forall i | 0 < i < |d| && d[i] == '/'
        ensures d[i - 1] != '/'
      {
        assert d[i] == p[i] && d[i - 1] == p[i - 1];
      }
    }
  }

  /** A resolved path is its parent, a separator (unless the parent is the
      root) and its last segment. */
  lemma DirnameJoinsBasename(p: string)
    requires Resolved(p)
    ensures p == Dirname(p) + (if Dirname(p) == "/" then "" else "/") + Basename(p)
  {
    var k := LastIndexOf(p, '/');
    assert p == p[..k] + "/" + p[k + 1..];
    if k == 0 {
      assert p[..k] + "/" == "/";
    } else {
      assert p[k - 1] != '/';
      assert p[..k][k - 1] != '/';
    }
  }

  /** `manifestDir` in `run`: a manifest path with an extension (a
      `Cargo.toml`) stands for its directory; any other path is already the
      directory. */
  function ManifestDir(manifestPath: string): (dir: string)
    requires Resolved(manifestPath)
    ensures Resolved(dir)
    ensures ExtName(manifestPath) == "" ==> dir == manifestPath
    ensures ExtName(manifestPath) != "" ==>
              && Basename(manifestPath) != ""
              && manifestPath == dir + (if dir == "/" then "" else "/") + Basename(manifestPath)
  {
    if ExtName(manifestPath) != "" then
      DirnameResolved(manifestPath);
      DirnameJoinsBasename(manifestPath);
      Dirname(manifestPath)
    else manifestPath
  }
}

=== FILE: pr_comment.dfy ===
/** src/pr-comment/pr-comment.ts: the summary of a cargo-semver-checks run,
    the severity it is reported at, the comment template chosen for that
    severity, and the filling of the template's count placeholders.
    Reading the template file and posting the comment are left to the
    caller.
 */
module PrComment {
  import opened Wrappers
  import opened Strings

  /* ---------------------------------------------------------------------- */
  /* ResultType                                                              */
  /* ---------------------------------------------------------------------- */

  /** How a run is reported, from least to most severe. */
  datatype ResultType = Patch | Minor | Major | Warning | Error {
    /** The enum's string value. */
    function Tag(): string {
      match this
      case Patch => "patch"
      case Minor => "minor"
      case Major => "major"
      case Warning => "warning"
      case Error => "error"
    }

    /** Position in the precedence error > warning > major > minor > patch. */
    function Rank(): nat {
      match this
      case Patch => 0
      case Minor => 1
      case Major => 2
      case Warning => 3
      case Error => 4
    }
  }

  /** The result type whose string value is `t`, if any. */
  function FromTag(t: string): (r: Option<ResultType>)
    ensures r.Some? ==> r.value.Tag() == t
  {
    match t
    case "patch" => Some(Patch)
    case "minor" => Some(Minor)
    case "major" => Some(Major)
    case "warning" => Some(Warning)
    case "error" => Some(Error)
    case _ => None
  }

  /** The string values name the result types one-to-one. */
  lemma TagRoundTrip(r: ResultType)
    ensures FromTag(r.Tag()) == Some(r)
  {
  }

  /** The template for a result type is `<tag>.txt`. */
  function TemplateFileName(r: ResultType): (name: string)
    ensures EndsWith(name, ".txt")
    ensures FromTag(name[..|name| - 4]) == Some(r)
  {
    var name := r.Tag() + ".txt";
    assert name[..|name| - 4] == r.Tag();
    assert name[|name| - 4..] == ".txt";
    name
  }

  /** Different result types load different templates. */
  lemma TemplateFileNamesDistinct(a: ResultType, b: ResultType)
    ensures a != b ==> TemplateFileName(a) != TemplateFileName(b)
  {
  }

  /* ---------------------------------------------------------------------- */
  /* ResultSummary                                                           */
  /* ---------------------------------------------------------------------- */

  /** One reported item. The result classes carry no data, so only how many
      there are of each kind matters. */
  datatype Finding = Finding

  /** A `ResultSummary`: the four lists and the result type fixed when it was
      built. */
  datatype ResultSummary = ResultSummary(
    minors: seq<Finding>,
    majors: seq<Finding>,
    warnings: seq<Finding>,
    errors: seq<Finding>,
    result: ResultType
  )

  /** `determineResultType`: the first non-empty list in the order errors,
      warnings, majors, minors names the result; patch when all are empty. */
  function DetermineResultType(minors: seq<Finding>, majors: seq<Finding>,
                               warnings: seq<Finding>, errors: seq<Finding>): (r: ResultType)
    ensures r == Error <==> |errors| > 0
    ensures r == Warning <==> |errors| == 0 && |warnings| > 0
    ensures r == Major <==> |errors| == 0 && |warnings| == 0 && |majors| > 0
    ensures r == Minor <==> |errors| == 0 && |warnings| == 0 && |majors| == 0 && |minors| > 0
    ensures r == Patch <==> |errors| == 0 && |warnings| == 0 && |majors| == 0 && |minors| == 0
  {
    if |errors| > 0 then Error
    else if |warnings| > 0 then Warning
    else if |majors| > 0 then Major
    else if |minors| > 0 then Minor
    else Patch
  }

  /** Whether the list of the given kind is non-empty; patch is always present. */
  predicate Present(kind: ResultType, minors: seq<Finding>, majors: seq<Finding>,
                    warnings: seq<Finding>, errors: seq<Finding>) {
    match kind
    case Patch => true
    case Minor => |minors| > 0
    case Major => |majors| > 0
    case Warning => |warnings| > 0
    case Error => |errors| > 0
  }

  /** The result type is the most severe kind present: it is present, and no
      present kind outranks it. */
  lemma ResultIsMostSevere(minors: seq<Finding>, majors: seq<Finding>,
                           warnings: seq<Finding>, errors: seq<Finding>)
    ensures var r := DetermineResultType(minors, majors, warnings, errors);
            && Present(r, minors, majors, warnings, errors)
            && forall k: ResultType :: Present(k, minors, majors, warnings, errors) ==> k.Rank() <= r.Rank()
  {
  }

  /** The most severe present kind is unique, so any result type with that
      property is the one chosen. */
  lemma MostSevereIsDetermined(minors: seq<Finding>, majors: seq<Finding>,
                               warnings: seq<Finding>, errors: seq<Finding>, r: ResultType)
    requires Present(r, minors, majors, warnings, errors)
    requires forall k: ResultType :: Present(k, minors, majors, warnings, errors) ==> k.Rank() <= r.Rank()
    ensures r == DetermineResultType(minors, majors, warnings, errors)
  {
    var d := DetermineResultType(minors, majors, warnings, errors);
    ResultIsMostSevere(minors, majors, warnings, errors);
    assert d.Rank() <= r.Rank() && r.Rank() <= d.Rank();
  }

  /** A summary whose result type is the one its lists determine. */
  predicate Consistent(s: ResultSummary) {
    s.result == DetermineResultType(s.minors, s.majors, s.warnings, s.errors)
  }

  /** `new ResultSummary(...)`: keeps the lists and fixes the result type. */
  function NewResultSummary(minors: seq<Finding>, majors: seq<Finding>,
                            warnings: seq<Finding>, errors: seq<Finding>): (s: ResultSummary)
    ensures s.minors == minors && s.majors == majors && s.warnings == warnings && s.errors == errors
    ensures Consistent(s)
  {
    ResultSummary(minors, majors, warnings, errors, DetermineResultType(minors, majors, warnings, errors))
  }

  /* ---------------------------------------------------------------------- */
  /* Parsing                                                                 */
  /* ---------------------------------------------------------------------- */

  const NoOutputMessage := "No output provided for parsing."

  /** The four list parsers, which do not yet read their input. */
  function ParseMinors(output: string): seq<Finding> { [] }
  function ParseMajors(output: string): seq<Finding> { [] }
  function ParseWarnings(output: string): seq<Finding> { [] }
  function ParseErrors(output: string): seq<Finding> { [] }

  /** `parseCargoSemverChecksOutput` on the `cargo-semver-checks-output`
      input: empty output is an error; any other output is summarised by the
      four parsers. */
  function ParseCargoSemverChecksOutput(output: string): (r: Result<ResultSummary, string>)
    ensures r.Failure? <==> output == ""
    ensures r.Failure? ==> r.error == NoOutputMessage
    ensures r.Success? ==> Consistent(r.value)
  {
    if output == "" then Failure(NoOutputMessage)
    else Success(NewResultSummary(ParseMinors(output), ParseMajors(output),
                                  ParseWarnings(output), ParseErrors(output)))
  }

  /** With the parsers as they stand, every non-empty output is reported as
      a patch with nothing found. */
  lemma NonEmptyOutputIsPatch(output: string)
    requires output != ""
    ensures ParseCargoSemverChecksOutput(output)
         == Success(ResultSummary([], [], [], [], Patch))
  {
  }

  /* ---------------------------------------------------------------------- */
  /* Template placeholders                                                   */
  /* ---------------------------------------------------------------------- */

  /** The keys of the replacement table, in its insertion order. */
  datatype Key = MinorCount | MajorCount | WarningCount | ErrorCount {
    function Name(): (n: string)
      ensures |n| >= 2 && forall i :: 0 <= i < |n| ==> n[i] != '{'
    {
      match this
      case MinorCount => "minorCount"
      case MajorCount => "majorCount"
      case WarningCount => "warningCount"
      case ErrorCount => "errorCount"
    }
  }

  const Keys: seq<Key> := [MinorCount, MajorCount, WarningCount, ErrorCount]

  /** `{{key}}`. */
  function Placeholder(k: Key): (p: string)
    ensures |p| > 4 && p[0] == '{' && p[1] == '{' && p[2] != '{'
  {
    "{{" + k.Name() + "}}"
  }

  /** The decimal length of the list a key counts: a non-empty digit string
      without leading zeros that reads back as that length. */
  function Count(k: Key, s: ResultSummary): (c: string)
    ensures c != "" && forall i :: 0 <= i < |c| ==> IsDigit(c[i])
    ensures c[0] == '0' ==> c == "0"
    ensures k == MinorCount ==> DecimalValue(c) == |s.minors|
    ensures k == MajorCount ==> DecimalValue(c) == |s.majors|
    ensures k == WarningCount ==> DecimalValue(c) == |s.warnings|
    ensures k == ErrorCount ==> DecimalValue(c) == |s.errors|
  {
    var n := match k
      case MinorCount => |s.minors|
      case MajorCount => |s.majors|
      case WarningCount => |s.warnings|
      case ErrorCount => |s.errors|;
    DecimalRoundTrip(n);
    NatToDecimal(n)
  }

  /** Replaces every occurrence of each key's placeholder, key by key. */
  function ReplaceKeys(template: string, ks: seq<Key>, s: ResultSummary): string
    decreases |ks|
  {
    if ks == [] then template
    else ReplaceKeys(ReplaceAll(template, Placeholder(ks[0]), Count(ks[0], s)), ks[1..], s)
  }

  /** `replaceTemplatePlaceholders`: no placeholder is left afterwards, and
      a template without placeholders comes back unchanged. */
  function ReplaceTemplatePlaceholders(template: string, s: ResultSummary): (r: string)
    ensures forall k: Key :: !Contains(r, Placeholder(k))
    ensures (forall k: Key :: !Contains(template, Placeholder(k))) ==> r == template
  {
    var r := ReplaceKeys(template, Keys, s);
    ReplaceKeysRemoves(template, Keys, s);
    forall k: Key
      ensures k in Keys
    {
      assert k == Keys[0] || k == Keys[1] || k == Keys[2] || k == Keys[3];
    }
    assert (forall k: Key :: !Contains(template, Placeholder(k))) ==> r == template by {
      if forall k: Key :: !Contains(template, Placeholder(k)) {
        ReplaceKeysAbsent(template, Keys, s);
      }
    }
    r
  }

  /** A placeholder holds no digit, so no count can contribute to one. */
  lemma CountAvoidsPlaceholder(c: string, k: Key)
    requires forall i :: 0 <= i < |c| ==> IsDigit(c[i])
    ensures NoCharIn(c, Placeholder(k))
  {
    var p := Placeholder(k);
    assert forall j :: 0 <= j < |p| ==> !IsDigit(p[j]);
    forall i | 0 <= i < |c|
      ensures c[i] !in p
    {
      assert forall j :: 0 <= j < |p| ==> p[j] != c[i];
    }
  }

  /** Replacing placeholders creates no occurrence of any placeholder that
      was not there before. */
  lemma {:induction false} ReplaceKeysCreatesNothing(t: string, ks: seq<Key>, s: ResultSummary, q: Key)
    ensures Contains(ReplaceKeys(t, ks, s), Placeholder(q)) ==> Contains(t, Placeholder(q))
    decreases |ks|
  {
    if ks != [] {
      var c := Count(ks[0], s);
      var t1 := ReplaceAll(t, Placeholder(ks[0]), c);
      ReplaceKeysCreatesNothing(t1, ks[1..], s, q);
      CountAvoidsPlaceholder(c, q);
      ReplaceAllCreatesNothing(t, Placeholder(ks[0]), c, Placeholder(q));
    }
  }

  /** After replacing the placeholders of `ks`, none of them is left. */
  lemma {:induction false} ReplaceKeysRemoves(t: string, ks: seq<Key>, s: ResultSummary)
    ensures forall k :: k in ks ==> !Contains(ReplaceKeys(t, ks, s), Placeholder(k))
    decreases |ks|
  {
    if ks != [] {
      var c := Count(ks[0], s);
      var t1 := ReplaceAll(t, Placeholder(ks[0]), c);
      ReplaceKeysRemoves(t1, ks[1..], s);
      CountAvoidsPlaceholder(c, ks[0]);
      ReplaceAllRemoves(t, Placeholder(ks[0]), c);
      ReplaceKeysCreatesNothing(t1, ks[1..], s, ks[0]);
      assert forall k :: k in ks ==> k == ks[0] || k in ks[1..];
    }
  }

  /** A template without placeholders comes back unchanged. */
  lemma {:induction false} ReplaceKeysAbsent(t: string, ks: seq<Key>, s: ResultSummary)
    requires forall k :: k in ks ==> !Contains(t, Placeholder(k))
    ensures ReplaceKeys(t, ks, s) == t
    decreases |ks|
  {
    if ks != [] {
      ReplaceAllAbsent(t, Placeholder(ks[0]), Count(ks[0], s));
      ReplaceKeysAbsent(t, ks[1..], s);
    }
  }

  /* A template as text pieces and placeholders, for stating what each
     occurrence becomes. */

  datatype Piece = Text(text: string) | Hole(key: Key)

  /** No two braces in a row. */
  predicate NoDoubleBrace(t: string) {
    forall i :: 0 <= i < |t| - 1 ==> !(t[i] == '{' && t[i + 1] == '{')
  }

  /** The text between placeholders holds no two braces in a row, and two
      text pieces never follow each other, so the only placeholders are the
      holes. Single braces, also right next to a hole, are allowed. */
  predicate Plain(ps: seq<Piece>) {
    && (forall i :: 0 <= i < |ps| ==> ps[i].Text? ==> NoDoubleBrace(ps[i].text))
    && (forall i :: 0 <= i < |ps| - 1 ==> ps[i].Text? ==> ps[i + 1].Hole?)
  }

  /** The template with the holes of `done` filled in by their counts and
      the other holes written as placeholders. */
  function RenderWith(ps: seq<Piece>, done: set<Key>, s: ResultSummary): string
    decreases |ps|
  {
    if ps == [] then ""
    else
      var head :=
        match ps[0]
        case Text(t) => t
        case Hole(k) => if k in done then Count(k, s) else Placeholder(k);
      head + RenderWith(ps[1..], done, s)
  }

  /** Two different placeholders already differ in their third or fourth
      character. */
  lemma PlaceholdersDifferEarly(k: Key, j: Key)
    requires k != j
    ensures k.Name()[0] != Placeholder(j)[2] || k.Name()[1] != Placeholder(j)[3]
  {
    assert Placeholder(j)[2] == j.Name()[0] && Placeholder(j)[3] == j.Name()[1];
  }

  /** Where `s` does not start with the pattern, its first character is kept. */
  lemma ReplaceAllNoMatchHere(s: string, pat: string, rep: string)
    requires pat != "" && |s| > 0
    requires !StartsWith(s, pat)
    ensures ReplaceAll(s, pat, rep) == [s[0]] + ReplaceAll(s[1..], pat, rep)
  {
  }

  /** Two braces and a brace-free name that the pattern does not start
      with pass through replacement unchanged. */
  lemma BracedNamePasses(name: string, rest: string, pat: string, rep: string)
    requires |pat| >= 4 && pat[0] == '{' && pat[1] == '{'
    requires |name| >= 2 && forall i :: 0 <= i < |name| ==> name[i] != '{'
    requires name[0] != pat[2] || name[1] != pat[3]
    ensures ReplaceAll("{{" + name + rest, pat, rep) == "{{" + name + ReplaceAll(rest, pat, rep)
  {
    var s := "{{" + name + rest;
    var s1 := s[1..];
    assert s1 == "{" + (name + rest);
    assert s1[1..] == name + rest;
    assert !StartsWith(s, pat) by {
      if |pat| <= |s| {
        assert s[..|pat|][2] == name[0] && s[..|pat|][3] == name[1];
      }
    }
    assert !StartsWith(s1, pat) by {
      if |pat| <= |s1| {
        assert s1[..|pat|][1] == name[0];
      }
    }
    ReplaceAllNoMatchHere(s, pat, rep);
    ReplaceAllNoMatchHere(s1, pat, rep);
    ReplaceAllPlainPrefix(name, rest, pat, rep);
    assert ['{'] + (['{'] + (name + ReplaceAll(rest, pat, rep))) == "{{" + name + ReplaceAll(rest, pat, rep);
  }

  /** Text with no two braces in a row passes through replacement unchanged,
      provided that when it ends in a brace, what follows does not start with
      a single brace. */
  lemma {:induction false} TextPasses(a: string, t: string, pat: string, rep: string)
    requires |pat| >= 3 && pat[0] == '{' && pat[1] == '{' && pat[2] != '{'
    requires NoDoubleBrace(a)
    requires a != [] && a[|a| - 1] == '{' && |t| >= 2 && t[0] == '{' ==> t[1] == '{'
    ensures ReplaceAll(a + t, pat, rep) == a + ReplaceAll(t, pat, rep)
    decreases |a|
  {
    if a == [] {
      assert a + t == t;
    } else {
      var s := a + t;
      TextHeadNoMatch(a, t, pat);
      ReplaceAllNoMatchHere(s, pat, rep);
      assert s[1..] == a[1..] + t;
      NoDoubleBraceTail(a);
      TextPasses(a[1..], t, pat, rep);
      assert [a[0]] + (a[1..] + ReplaceAll(t, pat, rep)) == a + ReplaceAll(t, pat, rep);
    }
  }

  /** Under the conditions of `TextPasses`, no match starts at the text's
      first character. */
  lemma TextHeadNoMatch(a: string, t: string, pat: string)
    requires |pat| >= 3 && pat[0] == '{' && pat[1] == '{' && pat[2] != '{'
    requires a != [] && NoDoubleBrace(a)
    requires a[|a| - 1] == '{' && |t| >= 2 && t[0] == '{' ==> t[1] == '{'
    ensures !StartsWith(a + t, pat)
  {
    var s := a + t;
    if |pat| <= |s| {
      var w := s[..|pat|];
      assert w[0] == a[0];
      if a[0] == '{' {
        if |a| >= 2 {
          assert w[1] == a[1];
        } else {
          assert w[1] == t[0] && w[2] == t[1];
        }
      }
    }
  }

  lemma NoDoubleBraceTail(a: string)
    requires a != [] && NoDoubleBrace(a)
    ensures NoDoubleBrace(a[1..])
  {
    forall i | 0 <= i < |a[1..]| - 1
      ensures !(a[1..][i] == '{' && a[1..][i + 1] == '{')
    {
      assert a[1..][i] == a[i + 1] && a[1..][i + 1] == a[i + 2];
    }
  }

  lemma PlainTail(ps: seq<Piece>)
    requires Plain(ps) && ps != []
    ensures Plain(ps[1..])
  {
    forall i | 0 <= i < |ps[1..]|
      ensures ps[1..][i] == ps[i + 1]
    {
    }
  }

  /** What follows a text piece is empty or a hole, so it starts either
      without a brace or with two. */
  lemma RenderAfterText(ps: seq<Piece>, done: set<Key>, s: ResultSummary)
    requires Plain(ps) && |ps| >= 1 && ps[0].Text?
    ensures var rest := RenderWith(ps[1..], done, s);
            |rest| >= 2 && rest[0] == '{' ==> rest[1] == '{'
  {
    if |ps| >= 2 {
      var k := ps[1].key;
      var hd := if k in done then Count(k, s) else Placeholder(k);
      assert ps[1..][0] == ps[1] && ps[1..][1..] == ps[2..];
      var rest := RenderWith(ps[1..], done, s);
      assert rest == hd + RenderWith(ps[2..], done, s);
      if k in done {
        assert rest[0] == hd[0] && IsDigit(hd[0]);
      } else {
        assert rest[0] == hd[0] && rest[1] == hd[1];
      }
    }
  }

  /** A placeholder is two braces followed by a name that starts with the
      key's name and holds no opening brace. */
  lemma ClosedName(k: Key) returns (name: string)
    ensures Placeholder(k) == "{{" + name
    ensures |name| >= 2 && name[0] == k.Name()[0] && name[1] == k.Name()[1]
    ensures forall i :: 0 <= i < |name| ==> name[i] != '{'
  {
    name := k.Name() + "}}";
    forall i | 0 <= i < |name|
      ensures name[i] != '{'
    {
      if i < |k.Name()| {
        assert name[i] == k.Name()[i];
      }
    }
  }

  /** A placeholder passes through the replacement of a different one. */
  lemma OtherPlaceholderKept(k: Key, j: Key, rest: string, rep: string)
    requires k != j
    ensures ReplaceAll(Placeholder(k) + rest, Placeholder(j), rep)
         == Placeholder(k) + ReplaceAll(rest, Placeholder(j), rep)
  {
    var name := ClosedName(k);
    PlaceholdersDifferEarly(k, j);
    BracedNamePasses(name, rest, Placeholder(j), rep);
  }

  /** Replacing one key's placeholder fills exactly that key's holes. */
  lemma {:induction false} ReplaceFillsHoles(ps: seq<Piece>, done: set<Key>, j: Key, s: ResultSummary)
    requires Plain(ps) && j !in done
    ensures ReplaceAll(RenderWith(ps, done, s), Placeholder(j), Count(j, s))
         == RenderWith(ps, done + {j}, s)
    decreases |ps|
  {
    var pat := Placeholder(j);
    var rep := Count(j, s);
    if ps != [] {
      var rest := RenderWith(ps[1..], done, s);
      PlainTail(ps);
      ReplaceFillsHoles(ps[1..], done, j, s);
      match ps[0]
      case Text(t) =>
        RenderAfterText(ps, done, s);
        TextPasses(t, rest, pat, rep);
      case Hole(k) =>
        if k in done {
          var c := Count(k, s);
          assert forall i :: 0 <= i < |c| ==> c[i] != pat[0];
          ReplaceAllPlainPrefix(c, rest, pat, rep);
        } else if k == j {
          ReplaceAllAtMatch(rest, pat, rep);
        } else {
          OtherPlaceholderKept(k, j, rest, rep);
        }
    }
  }

  lemma {:induction false} ReplaceKeysFillsHoles(ps: seq<Piece>, done: set<Key>, ks: seq<Key>, s: ResultSummary)
    requires Plain(ps)
    requires forall i :: 0 <= i < |ks| ==> ks[i] !in done
    requires forall i, i' :: 0 <= i < i' < |ks| ==> ks[i] != ks[i']
    ensures ReplaceKeys(RenderWith(ps, done, s), ks, s) == RenderWith(ps, done + (set k | k in ks), s)
    decreases |ks|
  {
    if ks != [] {
      var done' := done + {ks[0]};
      ReplaceFillsHoles(ps, done, ks[0], s);
      assert forall i :: 0 <= i < |ks[1..]| ==> ks[1..][i] !in done' by {
        forall i | 0 <= i < |ks[1..]|
          ensures ks[1..][i] !in done'
        {
          assert ks[1..][i] == ks[i + 1];
        }
      }
      ReplaceKeysFillsHoles(ps, done', ks[1..], s);
      KeySetCons(ks);
      assert done' + (set k | k in ks[1..]) == done + (set k | k in ks);
    } else {
      assert done + (set k | k in ks) == done;
    }
  }

  /** The keys of a non-empty list are its first key and the keys of the rest. */
  lemma KeySetCons(ks: seq<Key>)
    requires ks != []
    ensures (set k | k in ks) == {ks[0]} + (set k | k in ks[1..])
  {
    assert ks == [ks[0]] + ks[1..];
  }

  /** The template as written: every hole shows its placeholder. */
  function Render(ps: seq<Piece>): string {
    RenderWith(ps, {}, ResultSummary([], [], [], [], Patch))
  }

  /** The template with every hole replaced by the count of its key. */
  function Filled(ps: seq<Piece>, s: ResultSummary): string {
    RenderWith(ps, {MinorCount, MajorCount, WarningCount, ErrorCount}, s)
  }

  lemma {:induction false} RenderIgnoresSummary(ps: seq<Piece>, s: ResultSummary, s': ResultSummary)
    ensures RenderWith(ps, {}, s) == RenderWith(ps, {}, s')
    decreases |ps|
  {
    if ps != [] {
      RenderIgnoresSummary(ps[1..], s, s');
    }
  }

  /** In a template whose text between placeholders holds no two braces in a
      row, every placeholder occurrence becomes the decimal length of its
      list, and nothing else changes. */
  lemma EachPlaceholderBecomesItsCount(ps: seq<Piece>, s: ResultSummary)
    requires Plain(ps)
    ensures ReplaceTemplatePlaceholders(Render(ps), s) == Filled(ps, s)
  {
    RenderIgnoresSummary(ps, ResultSummary([], [], [], [], Patch), s);
    KeysDistinct();
    ReplaceKeysFillsHoles(ps, {}, Keys, s);
    TemplateIsReplaceKeys(Render(ps), s);
    assert {} + (set k | k in Keys) == {MinorCount, MajorCount, WarningCount, ErrorCount};
  }

  lemma KeysDistinct()
    ensures forall i, i' :: 0 <= i < i' < |Keys| ==> Keys[i] != Keys[i']
  {
  }

  lemma TemplateIsReplaceKeys(t: string, s: ResultSummary)
    ensures ReplaceTemplatePlaceholders(t, s) == ReplaceKeys(t, Keys, s)
  {
  }

  /** One `{{errorCount}}` between two texts without two braces in a row
      reads the number of errors, whatever the other lists hold; so
      `{{{errorCount}}}` becomes the count in single braces. */
  lemma ErrorCountFilled(a: string, b: string, s: ResultSummary)
    requires NoDoubleBrace(a) && NoDoubleBrace(b)
    ensures ReplaceTemplatePlaceholders(a + Placeholder(ErrorCount) + b, s)
         == a + NatToDecimal(|s.errors|) + b
  {
    var ps := [Text(a), Hole(ErrorCount), Text(b)];
    var e := ResultSummary([], [], [], [], Patch);
    assert RenderWith(ps[2..], {}, e) == b;
    assert RenderWith(ps[1..], {}, e) == Placeholder(ErrorCount) + b;
    assert Render(ps) == a + Placeholder(ErrorCount) + b;
    var all := {MinorCount, MajorCount, WarningCount, ErrorCount};
    assert RenderWith(ps[2..], all, s) == b;
    assert RenderWith(ps[1..], all, s) == NatToDecimal(|s.errors|) + b;
    EachPlaceholderBecomesItsCount(ps, s);
  }
}

=== FILE: rustdoc_cache.dfy ===
/** src/rustdoc-cache.ts: the key under which rustdoc artifacts are cached,
    and the restore/save behaviour of `RustdocCache` as transitions of its two
    private fields.
    The probes (`rustc --version`, `cargo semver-checks --version`), the glob
    over lock files, the hashes and the `@actions/cache` primitives are
    parameters of the model.
 */
module RustdocCache {
  import opened Wrappers
  import opened Strings
  import Utils
  import Sorting
  import Json

  /** What the key derivation reads. Unset inputs and variables are "". */
  datatype KeyInputs = KeyInputs(
    prefixKey: string,                 // input `prefix-key`
    sharedKey: string,                 // input `shared-key`
    githubJob: string,                 // environment variable GITHUB_JOB
    packages: seq<string>,             // input list `package`
    excludes: seq<string>,             // input list `exclude`
    manifestPath: string,              // input `manifest-path`
    platform: string,                  // `os.platform()`
    rustcVersionOutput: string,        // stdout of `rustc --version`
    semverChecksVersionOutput: string, // stdout of `cargo semver-checks --version`
    lockFiles: seq<string>             // paths matched by `<workspace>/**/Cargo.lock`
  )

  /** The hash primitives: md5 as a hex digest of everything fed to the
      hasher, and folder-hash's hash of one file. */
  datatype Hashers = Hashers(md5Hex: string -> string, hashElement: string -> string)

  const DefaultPrefix := "semver"
  const KeySuffix := "semver-checks-rustdoc"

  /* ---------------------------------------------------------------------- */
  /* getRunDependentKey                                                      */
  /* ---------------------------------------------------------------------- */

  /** The three JSON documents fed to the md5 hasher, package and exclude
      lists sorted first. */
  function RunDigestInput(i: KeyInputs): string {
    Json.SingleField("package", Json.StringArray(Sorting.Sort(i.packages)))
    + Json.SingleField("exclude", Json.StringArray(Sorting.Sort(i.excludes)))
    + Json.SingleField("manifest_path", Json.Quote(i.manifestPath))
  }

  /** `s.substring(0, n)`: at most the first `n` characters. */
  function Take(s: string, n: nat): (r: string)
    ensures |r| <= n && StartsWith(s, r)
    ensures |s| >= n ==> |r| == n
    ensures |s| < n ==> r == s
  {
    if |s| <= n then s else s[..n]
  }

  /** `getRunDependentKey`: the job id, a dash, and the first 16 hex digits of
      the digest of the selected packages, excludes and manifest path. */
  function RunDependentKey(i: KeyInputs, h: Hashers): (k: string)
    ensures StartsWith(k, i.githubJob + "-")
    ensures var digest := h.md5Hex(RunDigestInput(i));
            && StartsWith(digest, k[|i.githubJob| + 1..])
            && |k| == |i.githubJob| + 1 + (if |digest| >= 16 then 16 else |digest|)
  {
    // `[job, digest].join("-")`
    i.githubJob + "-" + Take(h.md5Hex(RunDigestInput(i)), 16)
  }

  /** The run-dependent key does not depend on the order in which packages
      and excluded packages are listed. */
  lemma RunDependentKeyIgnoresListOrder(i: KeyInputs, packages: seq<string>, excludes: seq<string>, h: Hashers)
    requires multiset(packages) == multiset(i.packages)
    requires multiset(excludes) == multiset(i.excludes)
    ensures RunDependentKey(i.(packages := packages, excludes := excludes), h) == RunDependentKey(i, h)
  {
    Sorting.SortIgnoresOrder(packages, i.packages);
    Sorting.SortIgnoresOrder(excludes, i.excludes);
  }

  /* ---------------------------------------------------------------------- */
  /* cacheKey                                                                */
  /* ---------------------------------------------------------------------- */

  /** The variable components of the cache key. */
  datatype KeyComponents = KeyComponents(
    prefix: string,        // `prefix-key`, or `semver`
    runKey: string,        // `shared-key`, or the run-dependent key
    platform: string,      // `os.platform()`
    rustcVersion: string,  // normalised `rustc --version`
    toolVersion: string,   // normalised `cargo semver-checks --version`
    locksHash: string      // hash of the matched `Cargo.lock` files
  )

  function Components(i: KeyInputs, h: Hashers): KeyComponents {
    KeyComponents(
      OrElse(i.prefixKey, DefaultPrefix),
      OrElse(i.sharedKey, RunDependentKey(i, h)),
      i.platform,
      Utils.RemoveWhitespaces(i.rustcVersionOutput),
      Utils.RemoveWhitespaces(i.semverChecksVersionOutput),
      Utils.HashFiles(i.lockFiles, h.hashElement, h.md5Hex))
  }

  /** The seven parts of the cache key, in their fixed order. */
  function KeyParts(c: KeyComponents): (parts: seq<string>)
    ensures |parts| == 7
  {
    [c.prefix, c.runKey, c.platform, c.rustcVersion, c.toolVersion, c.locksHash, KeySuffix]
  }

  /** The parts joined by dashes. It is never empty, starts with the prefix
      and ends with the fixed suffix. */
  function KeyOf(c: KeyComponents): (key: string)
    ensures key != ""
    ensures StartsWith(key, c.prefix + "-")
    ensures EndsWith(key, "-" + KeySuffix)
  {
    var parts := KeyParts(c);
    JoinEnds(parts, "-");
    Join(parts, "-")
  }

  /** The cache key as first computed: the prefix, the shared or
      run-dependent key, the platform, the two normalised versions, the
      lock-file hash and the suffix, joined by dashes. */
  function ComputeCacheKey(i: KeyInputs, h: Hashers): (key: string)
    ensures key != ""
    ensures StartsWith(key, OrElse(i.prefixKey, DefaultPrefix) + "-")
    ensures EndsWith(key, "-" + KeySuffix)
    ensures key == OrElse(i.prefixKey, DefaultPrefix) + "-" + OrElse(i.sharedKey, RunDependentKey(i, h))
                   + "-" + i.platform + "-" + Utils.RemoveWhitespaces(i.rustcVersionOutput)
                   + "-" + Utils.RemoveWhitespaces(i.semverChecksVersionOutput)
                   + "-" + Utils.HashFiles(i.lockFiles, h.hashElement, h.md5Hex) + "-" + KeySuffix
  {
    KeyOfLayout(Components(i, h));
    KeyOf(Components(i, h))
  }

  /** The key spelled out: the seven parts in their fixed order, each
      followed by a dash except the last. */
  lemma KeyOfLayout(c: KeyComponents)
    ensures KeyOf(c) == c.prefix + "-" + c.runKey + "-" + c.platform + "-" + c.rustcVersion
                        + "-" + c.toolVersion + "-" + c.locksHash + "-" + KeySuffix
  {
    var p := [c.prefix];
    assert Join(p, "-") == c.prefix;
    JoinSnoc(p, c.runKey, "-");
    p := p + [c.runKey];
    JoinSnoc(p, c.platform, "-");
    p := p + [c.platform];
    JoinSnoc(p, c.rustcVersion, "-");
    p := p + [c.rustcVersion];
    JoinSnoc(p, c.toolVersion, "-");
    p := p + [c.toolVersion];
    JoinSnoc(p, c.locksHash, "-");
    p := p + [c.locksHash];
    JoinSnoc(p, KeySuffix, "-");
    p := p + [KeySuffix];
    assert p == KeyParts(c);
  }

  /** Any one part changing while the others stay put changes the key. */
  lemma KeyChangesWithAnyPart(c: KeyComponents, d: KeyComponents, k: nat)
    requires k < 7
    requires KeyParts(d) == KeyParts(c)[k := KeyParts(d)[k]]
    requires KeyParts(c)[k] != KeyParts(d)[k]
    ensures KeyOf(c) != KeyOf(d)
  {
    var a := KeyParts(c);
    var b := KeyParts(d);
    assert forall m :: 0 <= m < 7 && m != k ==> a[m] == b[m];
    JoinDistinguishesPosition(a, b, "-", k);
  }

  /** The key determines each of the four components below: equal keys
      from records differing in one of them only mean that one is equal too. */
  lemma KeyOfTracksLocksHash(c: KeyComponents, x: string)
    ensures KeyOf(c.(locksHash := x)) == KeyOf(c) <==> x == c.locksHash
  {
    if x != c.locksHash {
      var d := c.(locksHash := x);
      assert KeyParts(d) == KeyParts(c)[5 := x];
      KeyChangesWithAnyPart(c, d, 5);
    }
  }

  lemma KeyOfTracksPlatform(c: KeyComponents, x: string)
    ensures KeyOf(c.(platform := x)) == KeyOf(c) <==> x == c.platform
  {
    if x != c.platform {
      var d := c.(platform := x);
      assert KeyParts(d) == KeyParts(c)[2 := x];
      KeyChangesWithAnyPart(c, d, 2);
    }
  }

  lemma KeyOfTracksRustcVersion(c: KeyComponents, x: string)
    ensures KeyOf(c.(rustcVersion := x)) == KeyOf(c) <==> x == c.rustcVersion
  {
    if x != c.rustcVersion {
      var d := c.(rustcVersion := x);
      assert KeyParts(d) == KeyParts(c)[3 := x];
      KeyChangesWithAnyPart(c, d, 3);
    }
  }

  lemma KeyOfTracksToolVersion(c: KeyComponents, x: string)
    ensures KeyOf(c.(toolVersion := x)) == KeyOf(c) <==> x == c.toolVersion
  {
    if x != c.toolVersion {
      var d := c.(toolVersion := x);
      assert KeyParts(d) == KeyParts(c)[4 := x];
      KeyChangesWithAnyPart(c, d, 4);
    }
  }

  /** The key changes exactly when the hash of the matched lock files does. */
  lemma CacheKeyTracksLockFiles(i: KeyInputs, lockFiles: seq<string>, h: Hashers)
    ensures ComputeCacheKey(i.(lockFiles := lockFiles), h) == ComputeCacheKey(i, h)
        <==> Utils.HashFiles(lockFiles, h.hashElement, h.md5Hex)
             == Utils.HashFiles(i.lockFiles, h.hashElement, h.md5Hex)
  {
    var c := Components(i, h);
    var x := Utils.HashFiles(lockFiles, h.hashElement, h.md5Hex);
    assert Components(i.(lockFiles := lockFiles), h) == c.(locksHash := x);
    KeyOfTracksLocksHash(c, x);
  }

  /** The key changes exactly when the runner platform does. */
  lemma CacheKeyTracksPlatform(i: KeyInputs, platform: string, h: Hashers)
    ensures ComputeCacheKey(i.(platform := platform), h) == ComputeCacheKey(i, h)
        <==> platform == i.platform
  {
    var c := Components(i, h);
    assert Components(i.(platform := platform), h) == c.(platform := platform);
    KeyOfTracksPlatform(c, platform);
  }

  /** The key changes exactly when the normalised compiler version does. */
  lemma CacheKeyTracksRustcVersion(i: KeyInputs, output: string, h: Hashers)
    ensures ComputeCacheKey(i.(rustcVersionOutput := output), h) == ComputeCacheKey(i, h)
        <==> Utils.RemoveWhitespaces(output) == Utils.RemoveWhitespaces(i.rustcVersionOutput)
  {
    var c := Components(i, h);
    var x := Utils.RemoveWhitespaces(output);
    assert Components(i.(rustcVersionOutput := output), h) == c.(rustcVersion := x);
    KeyOfTracksRustcVersion(c, x);
  }

  /** The key changes exactly when the normalised cargo-semver-checks version does. */
  lemma CacheKeyTracksToolVersion(i: KeyInputs, output: string, h: Hashers)
    ensures ComputeCacheKey(i.(semverChecksVersionOutput := output), h) == ComputeCacheKey(i, h)
        <==> Utils.RemoveWhitespaces(output) == Utils.RemoveWhitespaces(i.semverChecksVersionOutput)
  {
    var c := Components(i, h);
    var x := Utils.RemoveWhitespaces(output);
    assert Components(i.(semverChecksVersionOutput := output), h) == c.(toolVersion := x);
    KeyOfTracksToolVersion(c, x);
  }

  /** A non-empty `shared-key` replaces the run-dependent key entirely: the job
      id, the package selection and the manifest path no longer matter. */
  lemma SharedKeyReplacesRunKey(i: KeyInputs, githubJob: string, packages: seq<string>,
                                excludes: seq<string>, manifestPath: string, h: Hashers)
    requires i.sharedKey != ""
    ensures ComputeCacheKey(i.(githubJob := githubJob, packages := packages,
                               excludes := excludes, manifestPath := manifestPath), h)
         == ComputeCacheKey(i, h)
  {
    var j := i.(githubJob := githubJob, packages := packages, excludes := excludes, manifestPath := manifestPath);
    assert Components(j, h) == Components(i, h);
  }

  /** The dash join does not keep the parts apart: a dash-separated piece
      moved from the end of the prefix to the front of the run key leaves the
      key as it was. */
  lemma KeyOfDashCollision(c: KeyComponents, a: string, b: string, x: string)
    ensures KeyOf(c.(prefix := a + "-" + b, runKey := x)) == KeyOf(c.(prefix := a, runKey := b + "-" + x))
  {
    var t := [c.platform, c.rustcVersion, c.toolVersion, c.locksHash, KeySuffix];
    assert KeyParts(c.(prefix := a + "-" + b, runKey := x)) == [a + "-" + b, x] + t;
    assert KeyParts(c.(prefix := a, runKey := b + "-" + x)) == [a, b + "-" + x] + t;
    JoinFrontTwo(a + "-" + b, x, t, "-");
    JoinFrontTwo(a, b + "-" + x, t, "-");
    DashRegroup(a, b, x, Join(t, "-"));
  }

  /** A join of two parts and a non-empty rest, unfolded twice. */
  lemma JoinFrontTwo(u: string, v: string, t: seq<string>, sep: string)
    requires t != []
    ensures Join([u, v] + t, sep) == u + sep + (v + sep + Join(t, sep))
  {
    var p := [u, v] + t;
    assert p[1..] == [v] + t;
    assert p[1..][1..] == t;
  }

  /** Moving a dash-separated piece across a dash. */
  lemma DashRegroup(a: string, b: string, x: string, j: string)
    ensures (a + "-" + b) + "-" + (x + "-" + j) == a + "-" + ((b + "-" + x) + "-" + j)
  {
  }

  /** So the cache key is not injective: `prefix-key` "a-b" with `shared-key`
      "c" and `prefix-key` "a" with `shared-key` "b-c" share a key. */
  lemma PrefixDashCollision(i: KeyInputs, h: Hashers, a: string, b: string, c: string)
    requires a != "" && c != ""
    ensures a + "-" + b != a
    ensures ComputeCacheKey(i.(prefixKey := a + "-" + b, sharedKey := c), h)
         == ComputeCacheKey(i.(prefixKey := a, sharedKey := b + "-" + c), h)
  {
    var d := Components(i, h);
    assert Components(i.(prefixKey := a + "-" + b, sharedKey := c), h) == d.(prefix := a + "-" + b, runKey := c);
    assert Components(i.(prefixKey := a, sharedKey := b + "-" + c), h) == d.(prefix := a, runKey := b + "-" + c);
    KeyOfDashCollision(d, a, b, c);
  }

  /* ---------------------------------------------------------------------- */
  /* RustdocCache state                                                      */
  /* ---------------------------------------------------------------------- */

  /** The mutable fields of a `RustdocCache`: the key the last restore or save
      recorded, and the memoised cache key ("" until first computed). */
  datatype CacheState = CacheState(restoredCacheKey: string, memoKey: string)

  /** A freshly constructed cache. */
  const Initial := CacheState("", "")

  /** `cacheKey()`: the memoised key if there is one, else a freshly computed
      key, which is then remembered. */
  function CacheKey(c: CacheState, i: KeyInputs, h: Hashers): (r: (string, CacheState))
    ensures r.0 != ""
    ensures r.1 == c.(memoKey := r.0)
    ensures c.memoKey != "" ==> r.0 == c.memoKey
    ensures c.memoKey == "" ==> r.0 == ComputeCacheKey(i, h)
  {
    if c.memoKey != "" then (c.memoKey, c)
    else
      var key := ComputeCacheKey(i, h);
      (key, c.(memoKey := key))
  }

  /** Once computed, the key is fixed: every later call returns it and changes
      nothing, whatever the inputs look like by then. */
  lemma CacheKeyMemoised(c: CacheState, i: KeyInputs, h: Hashers, later: KeyInputs, laterH: Hashers)
    ensures var (key, c1) := CacheKey(c, i, h);
            CacheKey(c1, later, laterH) == (key, c1)
  {
  }

  /** `restore()`: `lookup` stands for `cache.restoreCache` called with the
      key as primary and as only restore key; it returns the key of the entry
      it restored, if any. A hit records that key and answers true; a miss
      leaves the recorded key alone and answers false. */
  function Restore(c: CacheState, i: KeyInputs, h: Hashers, lookup: string -> Option<string>)
    : (r: (bool, CacheState))
    ensures var key := CacheKey(c, i, h).0;
            && r.1.memoKey == key
            && (r.0 <==> Provided(lookup(key)))
            && (r.0 ==> r.1.restoredCacheKey == lookup(key).value)
            && (!r.0 ==> r.1.restoredCacheKey == c.restoredCacheKey)
  {
    var (key, c1) := CacheKey(c, i, h);
    var found := lookup(key);
    if found.Some? && found.value != "" then (true, c1.(restoredCacheKey := found.value))
    else (false, c1)
  }

  /** `save()`: the entry key is the cache key, a dash and the hash of the
      local cache folder. Nothing is written when that is the key last
      recorded; otherwise the folder is saved under it and it is recorded.
      The first component of the result is the key written under, if any. */
  function Save(c: CacheState, i: KeyInputs, h: Hashers, localHash: string)
    : (r: (Option<string>, CacheState))
    ensures var key := CacheKey(c, i, h).0;
            var entry := key + "-" + localHash;
            && r.1 == CacheState(entry, key)
            && (r.0.None? <==> c.restoredCacheKey == entry)
            && (r.0.Some? ==> r.0.value == entry && StartsWith(r.0.value, key + "-"))
  {
    var (key, c1) := CacheKey(c, i, h);
    var entry := key + "-" + localHash;
    assert entry[..|key + "-"|] == key + "-";
    if c1.restoredCacheKey == entry then (None, c1)
    else (Some(entry), c1.(restoredCacheKey := entry))
  }

  /** A second save with an unchanged local folder writes nothing. */
  lemma SaveTwiceWritesOnce(c: CacheState, i: KeyInputs, h: Hashers, later: KeyInputs, localHash: string)
    ensures var (_, c1) := Save(c, i, h, localHash);
            Save(c1, later, h, localHash) == (None, c1)
  {
  }

  /** Over one run (a fresh cache restored, then saved), the save is skipped
      exactly when the restore hit an entry whose key is the current cache key
      followed by the hash of the folder as it is now. */
  lemma RunSkipsSaveIffRestoredEntryIsCurrent(i: KeyInputs, h: Hashers,
                                              lookup: string -> Option<string>, localHash: string)
    ensures var key := ComputeCacheKey(i, h);
            var (hit, c1) := Restore(Initial, i, h, lookup);
            var (written, c2) := Save(c1, i, h, localHash);
            written.None? <==> hit && lookup(key).value == key + "-" + localHash
  {
  }
}

=== FILE: sorting.dfy ===
/** The order used by JavaScript's default `Array.prototype.sort` on strings
    (lexicographic by character), an insertion sort that realises it, and the
    fact that makes sorted aggregation order-independent: a sorted list is
    determined by its multiset of elements.
 */
module Sorting {

  /** `a` sorts at or before `b`: lexicographic order on characters, a proper
      prefix first. */
  predicate Below(a: string, b: string)
    decreases |a|
  {
    |a| == 0 || (|b| > 0 && (a[0] < b[0] || (a[0] == b[0] && Below(a[1..], b[1..]))))
  }

  lemma {:induction false} BelowReflexive(a: string)
    ensures Below(a, a)
    decreases |a|
  {
    if |a| > 0 {
      BelowReflexive(a[1..]);
    }
  }

  lemma {:induction false} BelowAntisymmetric(a: string, b: string)
    ensures Below(a, b) && Below(b, a) ==> a == b
    decreases |a|
  {
    if |a| > 0 && |b| > 0 && a[0] == b[0] {
      BelowAntisymmetric(a[1..], b[1..]);
      assert a == [a[0]] + a[1..];
      assert b == [b[0]] + b[1..];
    }
  }

  lemma {:induction false} BelowTransitive(a: string, b: string, c: string)
    ensures Below(a, b) && Below(b, c) ==> Below(a, c)
    decreases |a|
  {
    if |a| > 0 && |b| > 0 && |c| > 0 {
      BelowTransitive(a[1..], b[1..], c[1..]);
    }
  }

  lemma {:induction false} BelowTotal(a: string, b: string)
    ensures Below(a, b) || Below(b, a)
    decreases |a|
  {
    if |a| > 0 && |b| > 0 && a[0] == b[0] {
      BelowTotal(a[1..], b[1..]);
    }
  }

  /** A common prefix does not change how two strings compare. */
  lemma {:induction false} BelowCommonPrefix(d: string, x: string, y: string)
    ensures Below(d + x, d + y) <==> Below(x, y)
    decreases |d|
  {
    if |d| > 0 {
      assert (d + x)[1..] == d[1..] + x;
      assert (d + y)[1..] == d[1..] + y;
      BelowCommonPrefix(d[1..], x, y);
    } else {
      assert d + x == x && d + y == y;
    }
  }

  predicate Sorted(s: seq<string>) {
    forall i, j :: 0 <= i < j < |s| ==> Below(s[i], s[j])
  }

  predicate NoDuplicates(s: seq<string>) {
    forall i, j :: 0 <= i < j < |s| ==> s[i] != s[j]
  }

  /** Every element of `rest` is at or above `m` when `rest` holds `x` and the
      elements of `tail`, all of which are at or above `m`. */
  lemma InsertLowerBound(m: string, x: string, tail: seq<string>, rest: seq<string>)
    requires Below(m, x)
    requires forall k :: 0 <= k < |tail| ==> Below(m, tail[k])
    requires multiset(rest) == multiset(tail) + multiset{x}
    ensures forall j :: 0 <= j < |rest| ==> Below(m, rest[j])
  {
    forall j | 0 <= j < |rest|
      ensures Below(m, rest[j])
    {
      assert rest[j] in multiset(rest);
      if rest[j] != x {
        assert rest[j] in multiset(tail);
        var k :| 0 <= k < |tail| && tail[k] == rest[j];
      }
    }
  }

  /** Inserts `x` into a sorted list, before the first element it sorts below. */
  function Insert(x: string, s: seq<string>): (r: seq<string>)
    requires Sorted(s)
    ensures multiset(r) == multiset(s) + multiset{x}
    ensures Sorted(r)
    decreases |s|
  {
    if s == [] then [x]
    else if Below(x, s[0]) then
      assert forall k :: 0 <= k < |s| ==> Below(x, s[k]) by {
        forall k | 0 <= k < |s|
          ensures Below(x, s[k])
        {
          if k > 0 {
            BelowTransitive(x, s[0], s[k]);
          }
        }
      }
      [x] + s
    else
      BelowTotal(x, s[0]);
      var tail := s[1..];
      assert s == [s[0]] + tail;
      var rest := Insert(x, tail);
      InsertLowerBound(s[0], x, tail, rest);
      [s[0]] + rest
  }

  /** `[...s].sort()`: the elements of `s`, in ascending order. */
  function Sort(s: seq<string>): (r: seq<string>)
    ensures multiset(r) == multiset(s)
    ensures Sorted(r)
  {
    if s == [] then []
    else
      assert s == [s[0]] + s[1..];
      Insert(s[0], Sort(s[1..]))
  }

  /** Two sorted lists with the same elements are the same list. */
  lemma {:induction false} SortedUnique(a: seq<string>, b: seq<string>)
    requires Sorted(a) && Sorted(b) && multiset(a) == multiset(b)
    ensures a == b
    decreases |a|
  {
    if a == [] {
      assert |multiset(b)| == 0;
    } else {
      assert a[0] in multiset(b);
      assert b != [];
      assert b[0] in multiset(a);
      var i :| 0 <= i < |a| && a[i] == b[0];
      var j :| 0 <= j < |b| && b[j] == a[0];
      BelowReflexive(a[0]);
      assert Below(a[0], b[0]);
      assert Below(b[0], a[0]);
      BelowAntisymmetric(a[0], b[0]);
      assert a[0] == b[0];
      assert a == [a[0]] + a[1..];
      assert b == [b[0]] + b[1..];
      assert multiset(a[1..]) == multiset(a) - multiset{a[0]};
      assert multiset(b[1..]) == multiset(b) - multiset{b[0]};
      SortedUnique(a[1..], b[1..]);
    }
  }

  /** Sorting forgets the order of its input: any two arrangements of the same
      elements sort to the same list. */
  lemma SortIgnoresOrder(a: seq<string>, b: seq<string>)
    requires multiset(a) == multiset(b)
    ensures Sort(a) == Sort(b)
  {
    SortedUnique(Sort(a), Sort(b));
  }

  /** In a list without duplicates every present element occurs once. */
  lemma {:induction false} DistinctMultiplicity(s: seq<string>, x: string)
    requires NoDuplicates(s)
    ensures multiset(s)[x] == if x in s then 1 else 0
    decreases |s|
  {
    if s != [] {
      assert s == [s[0]] + s[1..];
      DistinctMultiplicity(s[1..], x);
      if x == s[0] {
        assert x !in s[1..];
      }
    }
  }

  /** Two duplicate-free lists with the same members have the same multiset. */
  lemma SameMembersSameMultiset(a: seq<string>, b: seq<string>)
    requires NoDuplicates(a) && NoDuplicates(b)
    requires forall x :: x in a <==> x in b
    ensures multiset(a) == multiset(b)
  {
    forall x
      ensures multiset(a)[x] == multiset(b)[x]
    {
      DistinctMultiplicity(a, x);
      DistinctMultiplicity(b, x);
    }
  }
}

=== FILE: strings.dfy ===
/** The JavaScript string and array primitives the action relies on, over
    `string` (a sequence of chars): prefix and suffix tests, `||` on strings,
    `Array.prototype.join`, `String.prototype.includes`,
    `String.prototype.replaceAll` with a literal pattern, and
    `Number.prototype.toString` on counts.
 */
module Strings {
  import opened Wrappers

  predicate StartsWith(s: string, prefix: string) {
    |prefix| <= |s| && s[..|prefix|] == prefix
  }

  predicate EndsWith(s: string, suffix: string) {
    |suffix| <= |s| && s[|s| - |suffix|..] == suffix
  }

  /** JavaScript truthiness of an optional string: present and not empty. */
  predicate Provided(v: Option<string>) {
    v.Some? && v.value != ""
  }

  /** JavaScript's `s || fallback` on strings: the empty string counts as absent. */
  function OrElse(s: string, fallback: string): string {
    if s != "" then s else fallback
  }

  /** No character of `r` occurs anywhere in `q`. */
  predicate NoCharIn(r: string, q: string) {
    forall i :: 0 <= i < |r| ==> r[i] !in q
  }

  /* ---------------------------------------------------------------------- */
  /* Join                                                                    */
  /* ---------------------------------------------------------------------- */

  /** `parts.join(sep)`: the empty list joins to "", one part to itself. */
  function Join(parts: seq<string>, sep: string): string
  {
    if |parts| == 0 then ""
    else if |parts| == 1 then parts[0]
    else parts[0] + sep + Join(parts[1..], sep)
  }

  /** Joining splits at any inner position into the join of both halves. */
  lemma {:induction false} JoinSplit(parts: seq<string>, sep: string, i: nat)
    requires 0 < i < |parts|
    ensures Join(parts, sep) == Join(parts[..i], sep) + sep + Join(parts[i..], sep)
    decreases i
  {
    if i == 1 {
      assert parts[..1] == [parts[0]];
    } else {
      JoinSplit(parts[1..], sep, i - 1);
      assert parts[1..][..i - 1] == parts[..i][1..];
      assert parts[1..][i - 1..] == parts[i..];
    }
  }

  /** Appending a part appends the separator and that part. */
  lemma JoinSnoc(parts: seq<string>, x: string, sep: string)
    requires parts != []
    ensures Join(parts + [x], sep) == Join(parts, sep) + sep + x
  {
    var all := parts + [x];
    JoinSplit(all, sep, |parts|);
    assert all[..|parts|] == parts && all[|parts|..] == [x];
  }

  /** The join seen around the part at position `i`. */
  lemma JoinAround(parts: seq<string>, sep: string, i: nat)
    requires i < |parts|
    ensures Join(parts, sep)
         == (if i == 0 then "" else Join(parts[..i], sep) + sep)
          + parts[i]
          + (if i == |parts| - 1 then "" else sep + Join(parts[i + 1..], sep))
  {
    if i > 0 {
      JoinSplit(parts, sep, i);
    }
    var tail := parts[i..];
    assert tail[0] == parts[i];
    if |tail| > 1 {
      assert tail[1..] == parts[i + 1..];
    }
  }

  /** A join of two or more parts starts with the first part and a separator,
      and ends with a separator and the last part. */
  lemma {:induction false} JoinEnds(parts: seq<string>, sep: string)
    requires |parts| >= 2
    ensures StartsWith(Join(parts, sep), parts[0] + sep)
    ensures EndsWith(Join(parts, sep), sep + parts[|parts| - 1])
    decreases |parts|
  {
    var j := Join(parts, sep);
    var rest := Join(parts[1..], sep);
    assert j == parts[0] + sep + rest;
    assert j[..|parts[0] + sep|] == parts[0] + sep;
    var last := parts[|parts| - 1];
    if |parts| == 2 {
      assert parts[1..] == [last];
      assert rest == last;
    } else {
      JoinEnds(parts[1..], sep);
      assert parts[1..][|parts| - 2] == last;
    }
    assert j[|j| - |sep + last|..] == sep + last;
  }

  /** Changing exactly one part changes the joined string, whatever the
      separator and whatever the other parts contain. */
  lemma JoinDistinguishesPosition(a: seq<string>, b: seq<string>, sep: string, i: nat)
    requires |a| == |b| && i < |a|
    requires forall j :: 0 <= j < |a| && j != i ==> a[j] == b[j]
    requires a[i] != b[i]
    ensures Join(a, sep) != Join(b, sep)
  {
    JoinAround(a, sep, i);
    JoinAround(b, sep, i);
    assert a[..i] == b[..i];
    assert a[i + 1..] == b[i + 1..];
    var left := if i == 0 then "" else Join(a[..i], sep) + sep;
    var right := if i == |a| - 1 then "" else sep + Join(a[i + 1..], sep);
    assert Join(a, sep) == left + a[i] + right;
    assert Join(b, sep) == left + b[i] + right;
    if |a[i]| == |b[i]| {
      assert (left + a[i] + right)[|left|..|left| + |a[i]|] == a[i];
      assert (left + b[i] + right)[|left|..|left| + |b[i]|] == b[i];
    }
  }

  /* ---------------------------------------------------------------------- */
  /* Occurrence                                                              */
  /* ---------------------------------------------------------------------- */

  /** `s.includes(q)`: `q` occurs in `s` at some position. */
  predicate Contains(s: string, q: string)
    decreases |s|
  {
    |q| <= |s| && (s[..|q|] == q || Contains(s[1..], q))
  }

  /** `q` occurs in `s` starting at position `i`. */
  predicate OccursAt(s: string, q: string, i: int) {
    0 <= i <= |s| - |q| && s[i..i + |q|] == q
  }

  /** `Contains` is exactly "some slice of `s` equals `q`". */
  lemma {:induction false} ContainsIffOccurrence(s: string, q: string)
    ensures Contains(s, q) <==> exists i :: OccursAt(s, q, i)
    decreases |s|
  {
    if |q| <= |s| {
      if s[..|q|] == q {
        assert OccursAt(s, q, 0);
      } else {
        ContainsIffOccurrence(s[1..], q);
        if Contains(s[1..], q) {
          var i :| OccursAt(s[1..], q, i);
          assert s[1..][i..i + |q|] == s[i + 1..i + 1 + |q|];
          assert OccursAt(s, q, i + 1);
        }
        if exists i :: OccursAt(s, q, i) {
          var i :| OccursAt(s, q, i);
          assert i != 0;
          assert s[1..][i - 1..i - 1 + |q|] == s[i..i + |q|];
          assert OccursAt(s[1..], q, i - 1);
        }
      }
    }
  }

  /** An occurrence in a suffix is an occurrence in the whole string. */
  lemma {:induction false} ContainsInSuffix(s: string, k: nat, q: string)
    requires k <= |s|
    ensures Contains(s[k..], q) ==> Contains(s, q)
    decreases k
  {
    if k > 0 {
      assert s[1..][k - 1..] == s[k..];
      ContainsInSuffix(s[1..], k - 1, q);
    }
  }

  /** An occurrence of `q` cannot start inside a prefix none of whose
      characters appear in `q`. */
  lemma {:induction false} ContainsSkipsForeignPrefix(a: string, t: string, q: string)
    requires q != "" && NoCharIn(a, q)
    ensures Contains(a + t, q) ==> Contains(t, q)
    decreases |a|
  {
    if a == [] {
      assert a + t == t;
    } else {
      assert q[0] in q;
      assert a[0] != q[0];
      if |q| <= |a + t| {
        assert (a + t)[..|q|][0] == a[0];
      }
      assert (a + t)[1..] == a[1..] + t;
      ContainsSkipsForeignPrefix(a[1..], t, q);
    }
  }

  /* ---------------------------------------------------------------------- */
  /* replaceAll                                                              */
  /* ---------------------------------------------------------------------- */

  /** `s.replaceAll(pat, rep)` for a literal, non-empty pattern and a
      replacement without `$`: a left-to-right scan that replaces every
      non-overlapping occurrence. JavaScript expands `$$`, `$&`, `` $` `` and
      `$'` in the replacement; `rep` is inserted as it stands. */
  function ReplaceAll(s: string, pat: string, rep: string): string
    requires pat != ""
    decreases |s|
  {
    if |s| < |pat| then s
    else if s[..|pat|] == pat then rep + ReplaceAll(s[|pat|..], pat, rep)
    else [s[0]] + ReplaceAll(s[1..], pat, rep)
  }

  /** Without an occurrence of the pattern, replaceAll changes nothing. */
  lemma {:induction false} ReplaceAllAbsent(s: string, pat: string, rep: string)
    requires pat != ""
    ensures !Contains(s, pat) ==> ReplaceAll(s, pat, rep) == s
    decreases |s|
  {
    if |pat| <= |s| && s[..|pat|] != pat {
      ReplaceAllAbsent(s[1..], pat, rep);
      assert [s[0]] + s[1..] == s;
    }
  }

  /** Text without the pattern's first character passes through unchanged. */
  lemma {:induction false} ReplaceAllPlainPrefix(a: string, t: string, pat: string, rep: string)
    requires pat != ""
    requires forall i :: 0 <= i < |a| ==> a[i] != pat[0]
    ensures ReplaceAll(a + t, pat, rep) == a + ReplaceAll(t, pat, rep)
    decreases |a|
  {
    if a == [] {
      assert a + t == t;
    } else {
      var s := a + t;
      if |pat| <= |s| {
        assert s[..|pat|][0] == a[0];
        assert s[..|pat|] != pat;
        assert ReplaceAll(s, pat, rep) == [a[0]] + ReplaceAll(s[1..], pat, rep);
        assert s[1..] == a[1..] + t;
        ReplaceAllPlainPrefix(a[1..], t, pat, rep);
        assert [a[0]] + (a[1..] + ReplaceAll(t, pat, rep)) == a + ReplaceAll(t, pat, rep);
      } else {
        assert ReplaceAll(s, pat, rep) == s;
        assert ReplaceAll(t, pat, rep) == t;
      }
    }
  }

  /** An occurrence at the front is replaced by `rep`. */
  lemma ReplaceAllAtMatch(t: string, pat: string, rep: string)
    requires pat != ""
    ensures ReplaceAll(pat + t, pat, rep) == rep + ReplaceAll(t, pat, rep)
  {
    assert (pat + t)[..|pat|] == pat;
    assert (pat + t)[|pat|..] == t;
  }

  /** Up to the first character of the first replacement, the output of
      replaceAll is a copy of its input. */
  lemma {:induction false} ReplaceAllKeepsPrefix(s: string, pat: string, rep: string, k: nat)
    requires pat != "" && rep != ""
    requires k <= |ReplaceAll(s, pat, rep)|
    requires forall i :: 0 <= i < k ==> ReplaceAll(s, pat, rep)[i] != rep[0]
    ensures k <= |s| && ReplaceAll(s, pat, rep)[..k] == s[..k]
    decreases |s|
  {
    var out := ReplaceAll(s, pat, rep);
    if |s| < |pat| {
    } else if s[..|pat|] == pat {
      assert out[0] == rep[0];
      assert k == 0;
    } else if k > 0 {
      var rest := ReplaceAll(s[1..], pat, rep);
      assert out == [s[0]] + rest;
      forall i | 0 <= i < k - 1
        ensures rest[i] != rep[0]
      {
        assert rest[i] == out[i + 1];
      }
      ReplaceAllKeepsPrefix(s[1..], pat, rep, k - 1);
      assert out[..k] == [s[0]] + rest[..k - 1];
      assert s[..k] == [s[0]] + s[1..][..k - 1];
    }
  }

  /** A string free of `rep[0]` that starts the output also starts the input. */
  lemma ReplaceAllPrefixOrigin(s: string, pat: string, rep: string, q: string)
    requires pat != "" && rep != "" && rep[0] !in q
    ensures var out := ReplaceAll(s, pat, rep);
            |q| <= |out| && out[..|q|] == q ==> |q| <= |s| && s[..|q|] == q
  {
    var out := ReplaceAll(s, pat, rep);
    if |q| <= |out| && out[..|q|] == q {
      forall i | 0 <= i < |q|
        ensures out[i] != rep[0]
      {
        assert out[i] == q[i];
      }
      ReplaceAllKeepsPrefix(s, pat, rep, |q|);
    }
  }

  /** After replaceAll no occurrence of the pattern is left, provided the
      replacement is non-empty and shares no character with the pattern. */
  lemma {:induction false} ReplaceAllRemoves(s: string, pat: string, rep: string)
    requires pat != "" && rep != "" && NoCharIn(rep, pat)
    ensures !Contains(ReplaceAll(s, pat, rep), pat)
    decreases |s|
  {
    var out := ReplaceAll(s, pat, rep);
    if |s| < |pat| {
    } else if s[..|pat|] == pat {
      var rest := ReplaceAll(s[|pat|..], pat, rep);
      ReplaceAllRemoves(s[|pat|..], pat, rep);
      ContainsSkipsForeignPrefix(rep, rest, pat);
    } else {
      var rest := ReplaceAll(s[1..], pat, rep);
      ReplaceAllRemoves(s[1..], pat, rep);
      ReplaceAllPrefixOrigin(s, pat, rep, pat);
      assert out[1..] == rest;
    }
  }

  /** replaceAll never creates an occurrence of another string `q`, provided
      the replacement is non-empty and shares no character with `q`. */
  lemma {:induction false} ReplaceAllCreatesNothing(s: string, pat: string, rep: string, q: string)
    requires pat != "" && rep != "" && q != "" && NoCharIn(rep, q)
    ensures Contains(ReplaceAll(s, pat, rep), q) ==> Contains(s, q)
    decreases |s|
  {
    var out := ReplaceAll(s, pat, rep);
    if |s| < |pat| {
    } else if s[..|pat|] == pat {
      var rest := ReplaceAll(s[|pat|..], pat, rep);
      ContainsSkipsForeignPrefix(rep, rest, q);
      ReplaceAllCreatesNothing(s[|pat|..], pat, rep, q);
      ContainsInSuffix(s, |pat|, q);
    } else {
      var rest := ReplaceAll(s[1..], pat, rep);
      assert out[1..] == rest;
      ReplaceAllPrefixOrigin(s, pat, rep, q);
      ReplaceAllCreatesNothing(s[1..], pat, rep, q);
    }
  }

  /* ---------------------------------------------------------------------- */
  /* Decimal rendering of counts                                             */
  /* ---------------------------------------------------------------------- */

  predicate IsDigit(c: char) {
    '0' as int <= c as int <= '9' as int
  }

  function DigitChar(d: nat): (c: char)
    requires d < 10
    ensures IsDigit(c) && (c as int) - ('0' as int) == d
  {
    (('0' as int) + d) as char
  }

  /** `n.toString()` for a non-negative integer: decimal digits, no leading
      zero, so 0 is the only number whose rendering starts with `0`. */
  function NatToDecimal(n: nat): (r: string)
    ensures |r| > 0
    ensures forall i :: 0 <= i < |r| ==> IsDigit(r[i])
    ensures r[0] == '0' ==> n == 0
    ensures r[0] == '0' ==> r == "0"
    decreases n
  {
    if n < 10 then [DigitChar(n)] else NatToDecimal(n / 10) + [DigitChar(n % 10)]
  }

  /** The value of a string of decimal digits (the reading of `NatToDecimal`). */
  function DecimalValue(s: string): nat
    requires forall i :: 0 <= i < |s| ==> IsDigit(s[i])
  {
    if s == "" then 0
    else
      var last := s[|s| - 1];
      assert IsDigit(last);
      10 * DecimalValue(s[..|s| - 1]) + ((last as int) - ('0' as int))
  }

  /** Reading back a rendered count gives the count. */
  lemma {:induction false} DecimalRoundTrip(n: nat)
    ensures DecimalValue(NatToDecimal(n)) == n
    decreases n
  {
    var r := NatToDecimal(n);
    if n >= 10 {
      DecimalRoundTrip(n / 10);
      assert r[..|r| - 1] == NatToDecimal(n / 10);
    }
  }
}

=== FILE: utils.dfy ===
/** src/utils.ts: error messages of caught values, the runner-platform to
    target-triple table, the two argv builders, whitespace normalisation of
    tool version output, and the lock-file hash.
    The digest (md5), the per-file hash (`folder-hash`) and the glob matcher
    are not part of this model: they enter as parameters.
 */
module Utils {
  import opened Wrappers
  import opened Strings
  import Sorting

  /* ---------------------------------------------------------------------- */
  /* getErrorMessage                                                         */
  /* ---------------------------------------------------------------------- */

  /** A value caught by a `catch` clause: an `Error` object, or any other value
      together with its `String(value)` rendering. */
  datatype Thrown = ErrorObject(message: string) | OtherValue(rendered: string)

  /** The diagnostic the action reports for a caught value. */
  function ErrorMessage(error: Thrown): (m: string)
    ensures error.ErrorObject? ==> m == error.message
    ensures error.OtherValue? ==> m == error.rendered
  {
    match error
    case ErrorObject(message) => message
    case OtherValue(rendered) => rendered
  }

  /* ---------------------------------------------------------------------- */
  /* getPlatformMatchingTarget                                               */
  /* ---------------------------------------------------------------------- */

  const UnsupportedRunner := "Unsupported runner"

  /** The release target triple for the runner's `os.platform()`. */
  function PlatformMatchingTarget(platform: string): (r: Result<string, string>)
    ensures platform == "linux" <==> r == Success("x86_64-unknown-linux-gnu")
    ensures platform == "win32" <==> r == Success("x86_64-pc-windows-msvc")
    ensures platform == "darwin" <==> r == Success("x86_64-apple-darwin")
    ensures r.Failure? <==> platform != "linux" && platform != "win32" && platform != "darwin"
    ensures r.Failure? ==> r.error == UnsupportedRunner
  {
    match platform
    case "linux" => Success("x86_64-unknown-linux-gnu")
    case "win32" => Success("x86_64-pc-windows-msvc")
    case "darwin" => Success("x86_64-apple-darwin")
    case _ => Failure(UnsupportedRunner)
  }

  /* ---------------------------------------------------------------------- */
  /* optionIfValueProvided / optionFromList                                  */
  /* ---------------------------------------------------------------------- */

  /** `[option, value]` when a non-empty value is given, nothing otherwise. */
  function OptionIfValueProvided(option: string, value: Option<string>): (r: seq<string>)
    ensures Provided(value) ==> r == [option, value.value]
    ensures !Provided(value) ==> r == []
  {
    if value.Some? && value.value != "" then [option, value.value] else []
  }

  /** `option` in front of every value, in the order of the values. */
  function OptionFromList(option: string, values: seq<string>): (r: seq<string>)
    ensures |r| == 2 * |values|
    ensures forall i :: 0 <= i < |values| ==> r[2 * i] == option && r[2 * i + 1] == values[i]
  {
    if values == [] then []
    else
      var rest := OptionFromList(option, values[1..]);
      var r := [option, values[0]] + rest;
      forall i | 1 <= i < |values|
        ensures r[2 * i] == option && r[2 * i + 1] == values[i]
      {
        var j := i - 1;
        assert r[2 * i] == rest[2 * j] && r[2 * i + 1] == rest[2 * j + 1];
        assert values[1..][j] == values[i];
      }
      r
  }

  /* ---------------------------------------------------------------------- */
  /* removeWhitespaces                                                       */
  /* ---------------------------------------------------------------------- */

  /** The characters JavaScript's `\s` and `String.prototype.trim` both treat
      as white space (WhiteSpace and LineTerminator of ECMA-262): tab, line
      feed, vertical tab, form feed, carriage return, space, no-break space,
      ogham space mark, the spaces U+2000 to U+200A, line and paragraph
      separator, narrow no-break space, medium mathematical space,
      ideographic space and the byte order mark. */
  predicate IsWhitespace(c: char) {
    var n := c as int;
    || 0x09 <= n <= 0x0D
    || n == 0x20 || n == 0xA0 || n == 0x1680
    || 0x2000 <= n <= 0x200A
    || n == 0x2028 || n == 0x2029 || n == 0x202F || n == 0x205F
    || n == 0x3000 || n == 0xFEFF
  }

  predicate NoWhitespace(s: string) {
    forall i :: 0 <= i < |s| ==> !IsWhitespace(s[i])
  }

  /** `s` without its leading white space. */
  function TrimStart(s: string): (r: string)
    ensures |r| <= |s| && r == s[|s| - |r|..]
    ensures forall i :: 0 <= i < |s| - |r| ==> IsWhitespace(s[i])
    ensures r == [] || !IsWhitespace(r[0])
  {
    if s != [] && IsWhitespace(s[0]) then TrimStart(s[1..]) else s
  }

  /** `s` without its trailing white space. */
  function TrimEnd(s: string): (r: string)
    ensures |r| <= |s| && r == s[..|r|]
    ensures forall i :: |r| <= i < |s| ==> IsWhitespace(s[i])
    ensures r == [] || !IsWhitespace(r[|r| - 1])
  {
    if s != [] && IsWhitespace(s[|s| - 1]) then TrimEnd(s[..|s| - 1]) else s
  }

  /** `s.trim()`: `s` without its leading and trailing white space. */
  function Trim(s: string): (r: string)
    ensures |r| <= |s|
    ensures r == [] || (!IsWhitespace(r[0]) && !IsWhitespace(r[|r| - 1]))
  {
    var t := TrimStart(s);
    var r := TrimEnd(t);
    assert r == [] || r[0] == t[0] by {
      if r != [] {
        assert r[0] == t[..|r|][0];
      }
    }
    r
  }

  /** `Trim(s)` is the slice of `s` starting at `lead`, with only white space
      before and after it. */
  lemma TrimShape(s: string) returns (lead: nat)
    ensures lead + |Trim(s)| <= |s|
    ensures Trim(s) == s[lead..lead + |Trim(s)|]
    ensures forall i :: 0 <= i < lead ==> IsWhitespace(s[i])
    ensures forall i :: lead + |Trim(s)| <= i < |s| ==> IsWhitespace(s[i])
  {
    var t := TrimStart(s);
    lead := |s| - |t|;
    TrimSlice(s);
    TrimTrailing(s);
    assert forall i :: 0 <= i < lead ==> IsWhitespace(s[i]);
  }

  /** The slice half of `TrimShape`. */
  lemma TrimSlice(s: string)
    ensures |Trim(s)| <= |TrimStart(s)|
    ensures var t := TrimStart(s);
      Trim(s) == s[|s| - |t|..|s| - |t| + |Trim(s)|]
  {
    var t := TrimStart(s);
    var r := TrimEnd(t);
    assert r == t[..|r|];
  }

  /** The trailing half of `TrimShape`. */
  lemma TrimTrailing(s: string)
    ensures var lead := |s| - |TrimStart(s)|;
      forall i :: lead + |Trim(s)| <= i < |s| ==> IsWhitespace(s[i])
  {
    var t := TrimStart(s);
    var r := TrimEnd(t);
    var lead := |s| - |t|;
    forall i | lead + |r| <= i < |s|
      ensures IsWhitespace(s[i])
    {
      assert s[i] == t[i - lead];
    }
  }

  /** `str.trim().replace(/\s/g, "-")`: the trimmed string with every inner
      white-space character turned into a dash. */
  function RemoveWhitespaces(s: string): (r: string)
    ensures |r| == |Trim(s)|
    ensures NoWhitespace(r)
    ensures forall i :: 0 <= i < |r| ==> IsWhitespace(Trim(s)[i]) ==> r[i] == '-'
    ensures forall i :: 0 <= i < |r| ==> !IsWhitespace(Trim(s)[i]) ==> r[i] == Trim(s)[i]
  {
    var t := Trim(s);
    seq(|t|, i requires 0 <= i < |t| => if IsWhitespace(t[i]) then '-' else t[i])
  }

  /** A string without white space is its own trim. */
  lemma TrimNoWhitespace(s: string)
    requires NoWhitespace(s)
    ensures Trim(s) == s
  {
    assert TrimStart(s) == s;
    assert TrimEnd(s) == s;
  }

  /** Normalising a version string twice is the same as normalising it once. */
  lemma RemoveWhitespacesIdempotent(s: string)
    ensures RemoveWhitespaces(RemoveWhitespaces(s)) == RemoveWhitespaces(s)
  {
    var r := RemoveWhitespaces(s);
    TrimNoWhitespace(r);
  }

  /* ---------------------------------------------------------------------- */
  /* hashFiles                                                               */
  /* ---------------------------------------------------------------------- */

  /** What an incremental hasher has been fed after one `update` per string. */
  function Concat(chunks: seq<string>): string {
    if chunks == [] then "" else chunks[0] + Concat(chunks[1..])
  }

  /** The per-file hashes of `paths`, in the order of `paths`. */
  function HashEach(paths: seq<string>, hashElement: string -> string): (hs: seq<string>)
    ensures |hs| == |paths|
    ensures forall i :: 0 <= i < |paths| ==> hs[i] == hashElement(paths[i])
  {
    seq(|paths|, i requires 0 <= i < |paths| => hashElement(paths[i]))
  }

  /** `hashFiles`: the digest of the per-file hashes of the matched paths,
      fed in sorted-path order. `matched` is what the glob returned, in
      whatever order it enumerated the file system. The contract names no
      sorting algorithm: any ordered arrangement of the matched paths gives
      the result. */
  function HashFiles(matched: seq<string>, hashElement: string -> string, md5Hex: string -> string): (r: string)
    ensures forall sorted :: Sorting.Sorted(sorted) && multiset(sorted) == multiset(matched)
              ==> r == md5Hex(Concat(HashEach(sorted, hashElement)))
  {
    var order := Sorting.Sort(matched);
    forall sorted | Sorting.Sorted(sorted) && multiset(sorted) == multiset(matched)
      ensures sorted == order
    {
      Sorting.SortedUnique(sorted, order);
    }
    md5Hex(Concat(HashEach(order, hashElement)))
  }

  /** The lock-file hash does not depend on the order the glob enumerated
      the matched files in. */
  lemma HashFilesIgnoresEnumerationOrder(a: seq<string>, b: seq<string>,
                                         hashElement: string -> string, md5Hex: string -> string)
    requires multiset(a) == multiset(b)
    ensures HashFiles(a, hashElement, md5Hex) == HashFiles(b, hashElement, md5Hex)
  {
    Sorting.SortIgnoresOrder(a, b);
  }

  /** The lock-file hash depends only on the set of matched files (a glob
      reports each file once). */
  lemma HashFilesDependsOnMatchedSet(a: seq<string>, b: seq<string>,
                                     hashElement: string -> string, md5Hex: string -> string)
    requires Sorting.NoDuplicates(a) && Sorting.NoDuplicates(b)
    requires forall x :: x in a <==> x in b
    ensures HashFiles(a, hashElement, md5Hex) == HashFiles(b, hashElement, md5Hex)
  {
    Sorting.SameMembersSameMultiset(a, b);
    HashFilesIgnoresEnumerationOrder(a, b, hashElement, md5Hex);
  }

  /** A top-level path sorts before one in a sub-directory whose name starts
      with a lower-case letter: `C` sorts before `i`. */
  lemma OuterLockSortsFirst(dir: string)
    ensures Sorting.Sorted([dir + "/Cargo.lock", dir + "/inner/Cargo.lock"])
  {
    var x: string := "/Cargo.lock";
    var y: string := "/inner/Cargo.lock";
    assert x[1..][0] == 'C' && y[1..][0] == 'i';
    assert Sorting.Below(x[1..], y[1..]);
    assert Sorting.Below(x, y);
    Sorting.BelowCommonPrefix(dir, x, y);
  }

  /** Two hashes fed one after the other. */
  lemma HashPairInOrder(first: string, second: string, hashElement: string -> string)
    ensures Concat(HashEach([first, second], hashElement)) == hashElement(first) + hashElement(second)
  {
    var hs := HashEach([first, second], hashElement);
    assert hs == [hashElement(first), hashElement(second)];
    assert hs[1..] == [hashElement(second)];
    assert Concat(hs[1..][1..]) == "";
  }

  /** The workspace's own `Cargo.lock` is hashed before the one of a member
      crate in `inner/`, whichever order the glob found them in. */
  lemma HashFilesOuterBeforeInner(dir: string, hashElement: string -> string, md5Hex: string -> string)
    ensures var outer := dir + "/Cargo.lock";
            var inner := dir + "/inner/Cargo.lock";
            && HashFiles([inner, outer], hashElement, md5Hex)
               == md5Hex(hashElement(outer) + hashElement(inner))
            && HashFiles([outer, inner], hashElement, md5Hex)
               == md5Hex(hashElement(outer) + hashElement(inner))
  {
    var outer := dir + "/Cargo.lock";
    var inner := dir + "/inner/Cargo.lock";
    var sorted := [outer, inner];
    OuterLockSortsFirst(dir);
    assert multiset([inner, outer]) == multiset(sorted);
    Sorting.SortedUnique(Sorting.Sort([inner, outer]), sorted);
    Sorting.SortedUnique(Sorting.Sort([outer, inner]), sorted);
    HashPairInOrder(outer, inner, hashElement);
  }
}

=== FILE: wrappers.dfy ===
/** Failure-compatible wrappers used throughout the model.
    - Option<T> models an optional value (`value?: string`, `undefined`).
    - Result<R, E> models an operation that either returns a value or throws.
 */
module Wrappers {

  datatype Option<+T> = None | Some(value: T)

  datatype Result<+R, +E> = Success(value: R) | Failure(error: E) {

    /** True if this is a thrown error */
    predicate IsFailure() {
      Failure?
    }

    /** Re-types a failure so that `:-` can propagate it */
    function PropagateFailure<U>(): Result<U, E>
      requires Failure?
    {
      Failure(error)
    }

    /** Returns the value of a success */
    function Extract(): R
      requires Success?
    {
      value
    }
  }
}
